=== FILE: README.md ===
# mid9songposts core, modelled in Dafny

mid9songposts scrapes the "midnight song thread" board (board 60076) of the
Bahamut forum at forum.gamer.com.tw, collects the music links people post
there, and stores threads, posts, comments and links. This project models
the core of that scraper as pure functions over immutable data and proves
what it promises:

- the **link site matchers** for Spotify and StreetVoice: how a resource id
  is read from a URL path, and how the general and embed URLs are built
  back from an id, with the PHP and Laravel string helpers they rely on
  (`Str::afterLast`, `Str::between`, `trim`, `explode`, PHP truthiness);
- the **title-search page** (`SearchTitle`): which URLs it accepts (with
  PHP 8's loose `qt == '1'`), dropping ad rows, the "nothing found" rule,
  the user filter, the thread links it builds and dispatches, and the walk
  to the next result page;
- **post creation** (`Post::extractLinks` and the `created` hook): replacing
  a post's links by the recognised ones, the `has_music` flag, and queueing
  the comment fetch;
- the **comment fetch** (`FetchPostComments::handle`): the request, the
  missing-cursor failure, and one upsert per comment keyed by post, poster,
  content and time;
- the **thread page** contract its tests fix: URL rejection, the thread
  index, posts, the date fallback, the next-page walk, and saving a thread
  with its posts as upserts;
- the **user-search continuation**, as its tests fix it: the request it
  makes, the post jobs it queues, and the successor it queues while there
  is a next page.

HTML documents are abstract records (the rows, the body text, the
pagination control). The database is a set of maps. Queued jobs are values
of `Pages.Job`. Fetching, JSON decoding, the clock and the link
recognisers are parameters.

Modules, one per file: `Wrappers` (Option/Result), `Numerals` (decimal
rendering), `PhpStr` (string helpers), `PhpNumeric` (numeric strings and
loose `==`), `Collections` (filter/unique), `Urls` (parsed URLs and
`nextPage()`), `Pages` (page error, pagination, jobs), `SearchTitles`,
`Spotify`, `StreetVoice`, `Posts`, `Comments`, `ThreadPages`, `SearchUsers`.

## Model

| member | source | states |
|---|---|---|
| SearchTitles.QtIsOne | app/Baha/SearchTitle.php:106 | `qt == '1'` holds exactly when `qt` is present and is a numeric string whose value is one (`01`, ` 1`, `1.0`, `1e0` all pass); a missing `qt` is `null`, which never equals `'1'` |
| SearchTitles.EnsureIsExpectedUrl | app/Baha/SearchTitle.php:100-112 | a URL is accepted exactly when the host is forum.gamer.com.tw, the path is `/B.php`, `q` is present and `qt` is numerically one; anything else is a NotExpectedPage error |
| SearchTitles.GetResultList | app/Baha/SearchTitle.php:121-135 | it fails exactly when no row holds a `.b-list__main` and the body lacks the "nothing found" marker; otherwise the list is the rows holding a `.b-list__main`, in document order |
| SearchTitles.New | app/Baha/SearchTitle.php:28-33 | construction succeeds exactly when the URL is accepted and the result list can be extracted; the page keeps its URL and document, and every listed row is a non-ad row |
| SearchTitles.NewKeepsResultRows | app/Baha/SearchTitle.php:123-125 | the kept rows of a document split in two are the kept rows of the first part followed by those of the second, and every non-ad row is kept |
| SearchTitles.FilterByUser | app/Baha/SearchTitle.php:71-83 | a falsy user (`null`, `""`, `"0"`) leaves the page unchanged; otherwise a row stays exactly when its user text equals the user, in order, and URL and document are untouched |
| SearchTitles.FilterByUserConcat | app/Baha/SearchTitle.php:77-80 | the user filter keeps document order: filtering a list split in two gives the filtered first part followed by the filtered second part |
| SearchTitles.FilterByUserSingle | app/Baha/SearchTitle.php:77-80 | a single row is kept, once, exactly when its user text equals the user, and dropped otherwise |
| SearchTitles.FilterByUserIdempotent | app/Baha/SearchTitle.php:71-83 | filtering by the same user twice is filtering once |
| SearchTitles.FilterByUserKeepsOwnRows | app/Baha/SearchTitle.php:71-83 | a list posted entirely by the user passes the filter whole |
| SearchTitles.GetLinks | app/Baha/SearchTitle.php:52-61 | the call fails exactly when some listed row has no `.b-list__main__title` (`attr('href')` throws on the empty node list); otherwise one link per listed row, in order, each being the forum root followed by that row's title href |
| SearchTitles.GetLinksConcat | app/Baha/SearchTitle.php:52-61 | the links of two consecutive runs of rows are the two link lists in turn, and a missing title in either run fails the whole call |
| SearchTitles.LinkInjective | app/Baha/SearchTitle.php:56-58 | rows with titles and equal links have equal hrefs |
| SearchTitles.HasNextPage | app/Baha/SearchTitle.php:142-149 | the listing has a next page exactly when its pagination control shows a sibling after `.pagenow` whose text is neither empty nor `"0"` |
| SearchTitles.NextPage | app/Baha/SearchTitle.php:90-93 | without a next page the result is `null`; with one it is the page constructed from `url->nextPage()` and the document fetched for that URL, whose rows and document are that page's own, and it fails exactly when constructing that page fails |
| SearchTitles.NextPageUrlAccepted | app/Baha/SearchTitle.php:92 | advancing an accepted URL gives an accepted URL, since only `page` changes |
| SearchTitles.NextPageFailsOnlyOnLayout | app/Baha/SearchTitle.php:90-93 | on an accepted page, the next page fails exactly when its document has neither result rows nor the "nothing found" marker |
| SearchTitles.Handle | app/Baha/SearchTitle.php:38-45 | the page is filtered by the user; nothing is dispatched exactly when a remaining row has no title (the links are built before the first dispatch); otherwise one `ScrapeBahaPostsContinuously` per remaining row, in order, with that row's link |
| SearchTitles.HandleWithoutUser | app/Baha/SearchTitle.php:38-45 | without a (truthy) user, jobs are dispatched exactly when every listed row has a title, and then every listed row's link is dispatched, in order |
| SearchTitles.HandleDispatchesMatchingRows | app/Baha/SearchTitle.php:38-45 | with a user, nothing is dispatched exactly when one of that user's rows has no title; otherwise a row's thread is dispatched exactly when that user posted the row |
| Pages.FollowingText | app/Baha/SearchTitle.php:144-148 | the first following sibling's text, `""` when there is none, and nothing (the exception) when there is no `.pagenow` node |
| Pages.HasNextPage | app/Baha/SearchTitle.php:142-149 | there is a next page exactly when a `.pagenow` node is followed by a sibling whose text is neither empty nor `"0"`; a missing `.pagenow` (the caught exception) means none |
| Collections.Filter | app/Baha/SearchTitle.php:123-125 | the result holds the accepted elements of the input, every accepted element, and nothing longer than the input |
| Collections.FilterConcat | app/Baha/SearchTitle.php:123-125 | filtering a concatenation is concatenating the filtered parts, so kept elements keep their relative order |
| Collections.FilterIdempotent | app/Baha/SearchTitle.php:77-80 | filtering twice with the same test is filtering once |
| Collections.FilterFilter | app/Baha/SearchTitle.php:77-80 | two filters in a row keep what both tests accept, in either order |
| Collections.Unique | app/Models/Post.php:77 | the result has no repetition and holds exactly the input's elements |
| Collections.UniqueOfDistinct | app/Models/Post.php:77 | a sequence without repetition is its own `unique()` |
| Spotify.IsTrackUrl | app/Links/Sites/Spotify.php:48-51 | `Str::startsWith` with the non-empty needle `/track/` is a plain prefix test |
| Spotify.IsEmbedUrl | app/Links/Sites/Spotify.php:53-56 | `Str::startsWith` with the non-empty needle `/embed/track/` is a plain prefix test |
| Spotify.WalkCondition | app/Links/Sites/Spotify.php:37-46 | a path passing the track test yields the text after the last `/track/`; otherwise one passing the embed test yields the text after the last `/embed/track/`; a path passing neither yields `null` |
| Spotify.GetResourceId | app/Links/Sites/Spotify.php:14-17 | the walked value when it is truthy; `null` when neither test passes or the walked value is `""` or `"0"` |
| Spotify.GeneralUrl | app/Links/Sites/Spotify.php:19-22 | the URL is the open.spotify.com origin followed by `/track/` and the id |
| Spotify.EmbeddedUrl | app/Links/Sites/Spotify.php:24-27 | the URL is the open.spotify.com origin followed by `/embed/track/` and the id |
| Spotify.PrefixesExclusive | app/Links/Sites/Spotify.php:48-56 | no path passes both tests, so the order of the tests never decides the result |
| Spotify.GeneralPathRoundTrip | app/Links/Sites/Spotify.php:14-22 | the id read back from the general URL's path is the id exactly when the id is truthy and `/track/` does not occur in `/` followed by the id |
| Spotify.EmbeddedPathRoundTrip | app/Links/Sites/Spotify.php:14-27 | the id read back from the embed URL's path is the id exactly when the id is truthy and `/embed/track/` does not occur in `/` followed by the id |
| Spotify.TrackIdEmbeds | app/Links/Sites/Spotify.php:19-27 | an id whose general URL reads back also has an embed URL that reads back |
| Spotify.EmbedOnlyAtStart | app/Links/Sites/Spotify.php:43-45 | when `/embed/track/` does not occur in `/` followed by the id, it occurs in the id's embed path only at the start |
| Spotify.TrackIdIsCanonical | app/Links/Sites/Spotify.php:39-41 | every id read from a track path is valid, and the general URL built from it reads back as the same id |
| StreetVoice.GetResourceId | app/Links/Sites/StreetVoice.php:21-30 | an id is returned exactly when the slash-trimmed path holds exactly two slashes; it is that trimmed path, the infix between the leading and the trailing slash runs, and neither starts nor ends with a slash |
| StreetVoice.IsThreeSegments | app/Links/Sites/StreetVoice.php:51-56 | `explode('/')` gives three pieces exactly when the path holds exactly two slashes |
| StreetVoice.ThreeSegmentsTruthy | app/Links/Sites/StreetVoice.php:29 | a three-segment path is never falsy, so the `?: null` fallback never fires |
| StreetVoice.GeneralUrl | app/Links/Sites/StreetVoice.php:32-35 | the URL is the streetvoice.com origin followed by the id |
| StreetVoice.GeneralPathRoundTrip | app/Links/Sites/StreetVoice.php:21-35 | the id read back from the general URL's path is the id exactly when the id holds two slashes and neither starts nor ends with one |
| StreetVoice.ResourceIdIsCanonical | app/Links/Sites/StreetVoice.php:21-30 | every id read from a path is valid, and its general URL reads back as the same id |
| StreetVoice.EmptySegmentCounts | app/Links/Sites/StreetVoice.php:51-56 | empty segments count: `/a//b/` gives the id `a//b` |
| StreetVoice.EmbeddedUrl | app/Links/Sites/StreetVoice.php:37-42 | the embed URL's id is the text between the first `songs/` and the last `/` after it |
| StreetVoice.EmbeddedUrlTakesSongId | app/Links/Sites/StreetVoice.php:37-42 | for an id `<user>/songs/<n>` whose user name does not end in `songs`, the embed URL carries `n` |
| StreetVoice.EmbeddedUrlUserEndingInSongs | app/Links/Sites/StreetVoice.php:37-42 | for every id `<user>/songs/<n>` whose user name ends in `songs` (such as `mysongs/songs/123`, a valid id), the embed URL carries `songs` instead of `n` |
| StreetVoice.EmbeddedUrlFixed | app/Links/Sites/StreetVoice.php:37-42 | the corrected embed URL carries the id's last path segment: the longest suffix of the id without a slash |
| StreetVoice.EmbeddedUrlFixedTakesSongId | app/Links/Sites/StreetVoice.php:37-42 | for every id `<user>/songs/<n>`, whatever the user name, the corrected embed URL carries `n` |
| PhpStr.AfterLast | app/Links/Sites/Spotify.php:40-44 | with a non-empty needle that occurs, the result is exactly what follows its last occurrence; otherwise it is the whole subject |
| PhpStr.IsAfterLastUnique | app/Links/Sites/Spotify.php:40-44 | what follows the last occurrence of a needle is determined uniquely |
| PhpStr.AfterLastIs | app/Links/Sites/Spotify.php:40-44 | `afterLast` returns any text that follows a last occurrence |
| PhpStr.After | app/Links/Sites/StreetVoice.php:39 | with a non-empty needle that occurs, the result is what follows its first occurrence; otherwise the whole subject |
| PhpStr.AfterIs | app/Links/Sites/StreetVoice.php:39 | `after` returns any text that follows a first occurrence |
| PhpStr.BeforeLast | app/Links/Sites/StreetVoice.php:39 | with a non-empty needle that occurs, the result is what precedes its last occurrence; otherwise the whole subject |
| PhpStr.BeforeLastIs | app/Links/Sites/StreetVoice.php:39 | `beforeLast` returns any text that precedes a last occurrence |
| PhpStr.Between | app/Links/Sites/StreetVoice.php:39 | `between` is `beforeLast` of `after`, and the subject itself when either delimiter is empty |
| PhpStr.Trim | app/Links/Sites/StreetVoice.php:23 | the result neither starts nor ends with the character, is empty exactly when the input is all that character, and is otherwise the infix between the leading and trailing runs |
| PhpStr.TrimIdempotent | app/Links/Sites/StreetVoice.php:23 | trimming twice is trimming once |
| PhpStr.TrimLeftPadded | app/Links/Sites/StreetVoice.php:23 | a string with no such character at either end, padded on the left, trims back to itself |
| PhpStr.Explode | app/Links/Sites/StreetVoice.php:53-55 | the pieces hold no delimiter, number one more than the delimiters, and join back to the input |
| PhpNumeric.SameValueIsEqualValue | app/Baha/SearchTitle.php:106 | the integer comparison of two parsed numeric strings holds exactly when their exact values are equal |
| PhpNumeric.LooseEqualsOneMeansValueOne | app/Baha/SearchTitle.php:106 | a string loosely equals `'1'` exactly when it is a numeric string of value one |
| Numerals.NatToString | app/Jobs/FetchPostComments.php:42 | the interpolated number is a non-empty digit string without a leading zero, whose value is the number |
| Numerals.ParseNatToString | app/Jobs/FetchPostComments.php:42 | reading the rendered number gives it back, so rendering is injective |
| Urls.Lookup | app/Baha/SearchTitle.php:105-106 | a parameter is found exactly when its name occurs (`hasQuery`), and `query` gives a value it holds; with duplicates, that of the first occurrence |
| Urls.SetParamLookup | app/Baha/SearchTitle.php:92 | after setting a parameter, it reads as the new value and every other parameter reads as before |
| Urls.SetParamShape | app/Baha/SearchTitle.php:92 | a missing parameter is appended at the end; a present one is replaced at the position of its first occurrence, with everything before and after it unchanged |
| Urls.SetParamDistinct | app/Baha/SearchTitle.php:92 | setting a parameter keeps parameter names distinct |
| Urls.PageNumber | tests/Unit/Baha/ThreadPageTest.php:194-203 | the current page is at least 1, and 1 when the URL has no `page` parameter |
| Urls.PageNumberReadsBack | tests/Unit/Baha/ThreadPageTest.php:194-203 | a `page` parameter holding a positive number written in decimal is read as that number |
| Urls.NextPage | app/Baha/SearchTitle.php:92 | scheme, host and path are kept; the next page number is the current one plus one, `page` reads as that number written out, and every other parameter reads as before |
| Urls.QueryStringAppend | tests/Unit/Baha/ThreadPageTest.php:202 | appending a parameter to a non-empty query appends `&k=v` to its text |
| Urls.NextPageOfFirstPage | tests/Unit/Baha/ThreadPageTest.php:194-203 | on a URL with a query but no `page`, the next page's text is the URL's text followed by `&page=2` |
| Posts.Extracted | app/Models/Post.php:76-79 | the saved links are free of repetition and are exactly the recognised ones, with the unmatched candidates dropped |
| Posts.ExtractLinks | app/Models/Post.php:74-92 | `has_music` becomes whether anything was recognised; when something was, the post's links become exactly the recognised ones, tagged with the post's id and poster; otherwise the links are untouched; other posts and other posts' links never change |
| Posts.ExtractLinksIdempotent | app/Models/Post.php:74-92 | extracting twice from the same content is extracting once, so no link is duplicated |
| Posts.ExtractLinksReplaces | app/Models/Post.php:81-89 | once a later extraction finds something, the post's links are exactly what it found, whatever was there before |
| Posts.NoLinksClearsHasMusic | app/Models/Post.php:81-91 | content with no recognised link, like `foo bar baz`, clears `has_music` and leaves the links alone |
| Posts.Create | app/Models/Post.php:24-31 | creating a post inserts it, runs the extraction on it, and queues exactly one `FetchPostComments` for it; other posts are unchanged |
| Posts.CreateStoresRecognisedLinks | app/Models/Post.php:24-31 | after creation the post's links are what its content yields, `has_music` says whether it yielded any, and other posts' links are untouched |
| Comments.RequestUrl | app/Jobs/FetchPostComments.php:38-42 | the request is the comment endpoint followed by the post's number, which reads back as that number |
| Comments.HasCursor | app/Jobs/FetchPostComments.php:46 | the response has a cursor exactly when it is an object holding `next_snC` with a non-null value |
| Comments.Step | app/Jobs/FetchPostComments.php:50-59 | the cursor entry is skipped; a comment saves its poster and upserts the comment under (post, poster, content, time) with `inserted_at` = now; a record with `userid` and `nick` but no `content` or `wtime` saves its poster and then aborts the job; any other entry aborts the job having saved nothing |
| Comments.Apply | app/Jobs/FetchPostComments.php:50-59 | the walk over the entries completes exactly when every entry other than the cursor is a full comment record |
| Comments.AbortSticks | app/Jobs/FetchPostComments.php:50-59 | once the walk over the entries has aborted, later entries change nothing |
| Comments.Handle | app/Jobs/FetchPostComments.php:36-60 | the job requests the post's comment URL, is marked failed exactly when the response has no `next_snC`, carries on regardless, and leaves the store the entry walk gives (a non-object response saves nothing) |
| Comments.ApplyKeys | app/Jobs/FetchPostComments.php:50-59 | on a well-formed response the walk completes; the comment keys become the old ones plus one per returned comment (none for the cursor), each returned comment has `inserted_at` = now and a saved poster, and every old comment that no returned comment names keeps its value |
| Comments.ApplyKeepsPostersSaved | app/Jobs/FetchPostComments.php:53 | saving the poster before its comment keeps every comment's poster saved, whether or not the walk completes |
| Comments.RerunAddsNothing | app/Jobs/FetchPostComments.php:51-58 | re-running on the same response adds no comment row |
| Comments.FailedStillSaves | app/Jobs/FetchPostComments.php:46-50 | a response without the cursor still has every comment saved |
| ThreadPages.New | tests/Unit/Baha/ThreadPageTest.php:16-21 | a page is constructed exactly for a thread URL, fetched from that URL |
| ThreadPages.RejectsForeignUrl | tests/Unit/Baha/ThreadPageTest.php:16-21 | `http://example.foo.bar` is rejected |
| ThreadPages.Index | tests/Unit/Baha/ThreadPageTest.php:60-89 | the index is the thread's number, and an unavailable thread raises NotExpectedPage |
| ThreadPages.Posts | tests/Unit/Baha/ThreadPageTest.php:142-173 | the posts are the page's sections in order, and a page without posts raises NotExpectedPage |
| ThreadPages.ThreadDate | tests/Unit/Baha/ThreadPageTest.php:112-129 | the date is the title's date, or the first post's date when the title has none |
| ThreadPages.NoTitleDateFallsBack | tests/Unit/Baha/ThreadPageTest.php:121-129 | a title without a date over a first post of 2 January 2021 gives that date |
| ThreadPages.HasNextPage | tests/Unit/Baha/ThreadPageTest.php:176-191 | a thread page has a next page exactly when its pagination control shows a sibling after `.pagenow` whose text is neither empty nor `"0"` |
| ThreadPages.NextPage | tests/Unit/Baha/ThreadPageTest.php:176-213 | `null` exactly on the last page; otherwise the page at `url->nextPage()` |
| ThreadPages.FirstPageNextUrl | tests/Unit/Baha/ThreadPageTest.php:194-203 | the test thread's URL renders as given, and its next page's URL is that text followed by `&page=2` |
| ThreadPages.Walk | tests/Unit/Baha/ThreadPageTest.php:176-191 | a walk starts at the page; each later page is `nextPage()` of the one before, so it sits at the advanced URL and carries the document fetched for that URL; it stops early only at a page without a next one |
| ThreadPages.WalkThreePages | tests/Unit/Baha/ThreadPageTest.php:176-191 | when the first two fetched pages report a next page and the third does not, the walk visits exactly those three pages |
| ThreadPages.Save | tests/Unit/Baha/ThreadPageTest.php:24-41 | saving needs an index and a date; the thread row is upserted by its number with its title and date, keeps an existing row id, and leaves other threads and the posts alone |
| ThreadPages.SaveIdempotent | tests/Unit/Baha/ThreadPageTest.php:44-57 | saving the same page twice gives the same store and the same row id |
| ThreadPages.SaveTwiceOneRow | tests/Unit/Baha/ThreadPageTest.php:44-57 | two saves into an empty database leave exactly one thread row |
| ThreadPages.SavePosts | tests/Unit/Baha/ThreadPageTest.php:225-241 | the post keys become the old ones plus the page's post numbers, and every post of the page points at the thread |
| ThreadPages.SavePostsKeepsOthers | tests/Unit/Baha/ThreadPageTest.php:225-241 | posts whose number the page does not carry are left as they were |
| ThreadPages.Handle | tests/Unit/Baha/ThreadPageTest.php:225-241 | handling succeeds exactly when the page has an index and posts; the thread is saved, and every post of the page is saved under the thread's row id |
| ThreadPages.HandleFirstPage | tests/Unit/Baha/ThreadPageTest.php:225-241 | twenty posts with distinct numbers, handled into an empty database, give one thread and twenty posts |
| SearchUsers.RequestUrl | tests/Feature/Jobs/ScrapePostsFromSearchUserContinuouslyTest.php:36-38 | the request goes to `/Bo.php` on the forum host |
| SearchUsers.RequestParams | tests/Feature/Jobs/ScrapePostsFromSearchUserContinuouslyTest.php:36-38 | in the request, `q` is the user, `qt` is 6 and `page` is the job's page |
| SearchUsers.RequestText | tests/Feature/Jobs/ScrapePostsFromSearchUserContinuouslyTest.php:36-38 | the request for any user and page renders as `https://forum.gamer.com.tw/Bo.php?bsn=60076&qt=6&q=<user>&page=<page>` |
| SearchUsers.FirstRequest | tests/Feature/Jobs/ScrapePostsFromSearchUserContinuouslyTest.php:28-38 | a job built with only a user requests page 1 |
| SearchUsers.PostJobs | tests/Feature/Jobs/ScrapePostsFromSearchUserContinuouslyTest.php:40-44 | one `ScrapeBahaPosts` per result row, in order, with the forum root followed by the row's href |
| SearchUsers.Step | tests/Feature/Jobs/ScrapePostsFromSearchUserContinuouslyTest.php:34-44 | a run fails exactly when its fetch fails; otherwise it requests its URL and queues the post jobs in order, followed by the successor exactly when there is a next page |
| SearchUsers.StepSuccessor | tests/Feature/Jobs/ScrapePostsFromSearchUserContinuouslyTest.php:48-77 | a run queues exactly one continuation, with the same user and title and the next page, when there is a next page, and none on the last page |
| SearchUsers.SuccessorRequestIsNextPage | tests/Feature/Jobs/ScrapePostsFromSearchUserContinuouslyTest.php:58-64 | the successor's request is the current request advanced by `nextPage()` |
| SearchUsers.Walk | tests/Feature/Jobs/ScrapePostsFromSearchUserContinuouslyTest.php:48-77 | a chain of runs makes no more requests than it has pages, and a still-pending continuation has the same user and title and the page advanced by the number of runs |
| SearchUsers.CompleteWalk | tests/Feature/Jobs/ScrapePostsFromSearchUserContinuouslyTest.php:48-77 | when every fetch succeeds and only the last page lacks a next page, the chain requests consecutive pages once each and in order, queues every row of every page, and leaves nothing pending |
| SearchUsers.FailureHalts | tests/Feature/Jobs/ScrapePostsFromSearchUserContinuouslyTest.php:48-77 | a failed fetch halts the chain: the failed run's request is the last one made and nothing is pending |

## Left out

- HTML parsing, CSS selectors, HTTP requests, JSON decoding, the queue and Eloquent are outside the model. A fetched page is an abstract document, a response is its decoded value, the queue is the returned job list, and the database is a set of maps.
- URL parsing and percent-encoding: URLs are already parsed (scheme, host, path, ordered parameters), and the query text is rendered without encoding. The `UrlString` class is not part of this model; its `nextPage()` is modelled from its uses and from ThreadPageTest (set `page` to the current page plus one, in place or appended).
- `Spotify.GetResourceId` and `StreetVoice.GetResourceId` take the URL's path only. Host matching is outside the model, and so are `LinkCollection` and `SiteContract`.
- `LinkCollection::fromText` is a parameter of `Posts.ExtractLinks`: the recogniser's output, one optional link per candidate URL.
- `Comments.Handle`: the poster row id that `PosterData::save` returns is a parameter (a function of the forum user id), and `now()` is a parameter.
- `Comments.Handle`: a response that does not decode to a JSON object saves nothing. The source would walk a decoded scalar as a one-element collection and then fail on it.
- `ThreadPages.ThreadDate`: the rule that moves a post's year back when the post date would fall after the thread date (ThreadPageTest.php:131-139) is not modelled. The title's date, or else the first post's date, is taken as given.
- The `ThreadPage` class and the `ScrapePostsFromSearchUserContinuously` job are not part of this model. Their models follow their tests: the thread page accepts forum URLs with path `/C.php` or `/Co.php`, the two paths the tests use. The user-search job is given the result rows' hrefs, so any title filtering on that page is left out.
- `ThreadPages.Walk` takes a step bound `n`. A thread with more than `n + 1` pages is walked only as far as the bound.
- `Urls.Lookup`: when a parameter name occurs more than once, the model reads the value of its first occurrence. That is the model's own choice: `UrlString` is not part of this model, and PHP's `parse_str` keeps the last duplicate.
- `PhpNumeric.LooseEquals` compares numeric strings exactly, as rationals. PHP converts non-integer numeric strings to floating point, so strings that differ only beyond double precision (such as `1.00000000000000001`) equal `'1'` in PHP but not here.
- The `Page` base class (fetching through the scraper client), `CheckBahaPageLayout`, the Blade views and the month view are not part of this model.

## Findings

| source | as written | input that shows it | evidently intended | confidence | as-written member | corrected member |
|---|---|---|---|---|---|---|
| app/Links/Sites/StreetVoice.php:37-42 | the embed id is the text between the FIRST `songs/` in the whole id and the last `/` after it | the valid id `mysongs/songs/123` (a user name ending in `songs`) gives the embed id `songs` | the song id `123`, the last segment of the three-segment id | not executed; high, since the string helpers are modelled from their documented behaviour | StreetVoice.EmbeddedUrlUserEndingInSongs | StreetVoice.EmbeddedUrlFixedTakesSongId |

=== FILE: collections.dfy ===
/** The order-preserving sequence operations the Laravel collection and
    Symfony node-list calls amount to: `reduce`/`filter` keep the elements
    a test accepts, in order; `unique` keeps first occurrences. */
module Collections {

  /** The elements of `s` that `keep` accepts, in their original order. */
  function Filter<T>(s: seq<T>, keep: T -> bool): (r: seq<T>)
    ensures |r| <= |s|
    ensures forall i :: 0 <= i < |r| ==> keep(r[i]) && r[i] in s
    ensures forall i :: 0 <= i < |s| && keep(s[i]) ==> s[i] in r
  {
    if |s| == 0 then []
    else
      var rest := Filter(s[1..], keep);
      if keep(s[0]) then [s[0]] + rest else rest
  }

  /** Filtering works piecewise: the kept elements of a concatenation are
      the kept elements of the first part followed by those of the second,
      so the relative order of kept elements is the original one. */
  lemma {:induction false} FilterConcat<T>(a: seq<T>, b: seq<T>, keep: T -> bool)
    ensures Filter(a + b, keep) == Filter(a, keep) + Filter(b, keep)
    decreases |a|
  {
    if |a| > 0 {
      assert (a + b)[1..] == a[1..] + b;
      FilterConcat(a[1..], b, keep);
    } else {
      assert a + b == b;
    }
  }

  /** A sequence whose every element is accepted is kept whole. */
  lemma {:induction false} FilterAll<T>(s: seq<T>, keep: T -> bool)
    requires forall i :: 0 <= i < |s| ==> keep(s[i])
    ensures Filter(s, keep) == s
    decreases |s|
  {
    if |s| > 0 {
      FilterAll(s[1..], keep);
    }
  }

  /** Filtering twice with the same test is filtering once. */
  lemma FilterIdempotent<T>(s: seq<T>, keep: T -> bool)
    ensures Filter(Filter(s, keep), keep) == Filter(s, keep)
  {
    FilterAll(Filter(s, keep), keep);
  }

  /** Two filters in a row keep what both tests accept, in either order. */
  lemma {:induction false} FilterFilter<T>(s: seq<T>, p: T -> bool, q: T -> bool)
    ensures Filter(Filter(s, p), q) == Filter(s, x => p(x) && q(x))
    ensures Filter(Filter(s, p), q) == Filter(Filter(s, q), p)
    decreases |s|
  {
    if |s| > 0 {
      FilterFilter(s[1..], p, q);
      var fp := Filter(s[1..], p);
      var fq := Filter(s[1..], q);
      if p(s[0]) {
        assert ([s[0]] + fp)[1..] == fp;
      }
      if q(s[0]) {
        assert ([s[0]] + fq)[1..] == fq;
      }
    }
  }

  /** No element occurs twice. */
  predicate NoDuplicates<T(==)>(s: seq<T>) {
    forall i, j :: 0 <= i < j < |s| ==> s[i] != s[j]
  }

  /** The first occurrence of every element, in order of first appearance. */
  function Unique<T(==)>(s: seq<T>): (r: seq<T>)
    ensures NoDuplicates(r)
    ensures forall i :: 0 <= i < |r| ==> r[i] in s
    ensures forall i :: 0 <= i < |s| ==> s[i] in r
    ensures |r| <= |s|
    decreases |s|
  {
    if |s| == 0 then []
    else
      var rest := Unique(s[..|s| - 1]);
      var last := s[|s| - 1];
      assert s == s[..|s| - 1] + [last];
      if last in rest then rest else rest + [last]
  }

  /** A sequence without repetitions is its own `unique()`. */
  lemma {:induction false} UniqueOfDistinct<T>(s: seq<T>)
    requires NoDuplicates(s)
    ensures Unique(s) == s
    decreases |s|
  {
    if |s| > 0 {
      var init := s[..|s| - 1];
      assert NoDuplicates(init);
      UniqueOfDistinct(init);
      assert s[|s| - 1] !in init;
      assert s == init + [s[|s| - 1]];
    }
  }
}

=== FILE: comments.dfy ===
/** The comment fetch for one post: one request to the forum's comment
    endpoint, a structural failure when the response carries no `next_snC`
    cursor, and an upsert per returned comment, keyed by post, poster,
    content and time. Posters are saved before the comments that name them. */
module Comments {
  import opened Wrappers
  import opened Numerals

  const Endpoint: string := "https://forum.gamer.com.tw/ajax/moreCommend.php?bsn=60076&snB="
  const CursorKey: string := "next_snC"

  /** A value of the decoded JSON object: `null`, a scalar, a comment
      record with the four fields the job reads, or a record that has
      `userid` and `nick` but lacks `content` or `wtime`. Anything else (a
      record without `userid` or `nick` included) is `Other`. */
  datatype Value =
    | Null
    | Scalar(text: string)
    | Entry(userid: string, nick: string, content: string, wtime: string)
    | Partial(userid: string, nick: string)
    | Other

  /** `json_decode($response, true)`: `None` when it is not an object. */
  type Response = Option<seq<(string, Value)>>

  /** The unique key of a `comments` row. */
  datatype CommentKey = CommentKey(postId: nat, posterId: nat, content: string, createdAt: string)

  /** `posters` by forum user id (holding the nickname), and `comments` by
      key (holding `inserted_at`). */
  datatype Store = Store(posters: map<string, string>, comments: map<CommentKey, string>)

  /** The post the job was queued for. */
  datatype Post = Post(id: nat, no: nat)

  /** `isset($data['next_snC'])`: the key is there with a non-null value;
      a response that is not an object has no cursor. */
  function HasCursor(data: Response): (r: bool)
    ensures r <==> data.Some? && exists v :: (CursorKey, v) in data.value && !v.Null?
  {
    data.Some? && exists i :: 0 <= i < |data.value| && data.value[i].0 == CursorKey && data.value[i].1 != Null
  }

  /** The URL of the one request the job makes. */
  function RequestUrl(post: Post): (r: string)
    ensures |r| > |Endpoint| && r[..|Endpoint|] == Endpoint
    ensures ParseNat(r[|Endpoint|..]) == Some(post.no)
  {
    ParseNatToString(post.no, 0);
    var r := Endpoint + NatToString(post.no);
    assert r[|Endpoint|..] == NatToString(post.no);
    r
  }

  /** One element of `collect($data)->except('next_snC')->each(...)`: the
      cursor is skipped; a comment saves its poster (`posterId` gives the
      poster row's id) and then upserts the comment with `inserted_at` set
      to `now`. The array literal is evaluated in order, so a record with
      `userid` and `nick` but no `content` or `wtime` saves its poster
      before the missing key throws; anything else throws before saving.
      A throw aborts the job. */
  function Step(st: Store, post: Post, e: (string, Value), posterId: string -> nat, now: string): (r: Result<Store, Store>)
    ensures e.0 == CursorKey ==> r == Success(st)
    ensures e.0 != CursorKey && e.1.Partial? ==> r == Failure(st.(posters := st.posters[e.1.userid := e.1.nick]))
    ensures e.0 != CursorKey && !e.1.Entry? && !e.1.Partial? ==> r == Failure(st)
    ensures e.0 != CursorKey && e.1.Entry? ==>
      && r.Success?
      && r.value.posters == st.posters[e.1.userid := e.1.nick]
      && r.value.comments == st.comments[CommentKey(post.id, posterId(e.1.userid), e.1.content, e.1.wtime) := now]
  {
    if e.0 == CursorKey then Success(st)
    else match e.1
      case Entry(userid, nick, content, wtime) =>
        var posters := st.posters[userid := nick];
        Success(Store(posters, st.comments[CommentKey(post.id, posterId(userid), content, wtime) := now]))
      case Partial(userid, nick) => Failure(st.(posters := st.posters[userid := nick]))
      case _ => Failure(st)
  }

  /** The entries processed in order; the first throwing one stops the
      walk with what was saved before it (`Failure`). The walk completes
      exactly when every entry other than the cursor is a full comment
      record. */
  function Apply(st: Store, post: Post, es: seq<(string, Value)>, posterId: string -> nat, now: string): (r: Result<Store, Store>)
    ensures r.Success? <==> WellFormed(es)
    decreases |es|
  {
    if |es| == 0 then Success(st)
    else
      var init, last := es[..|es| - 1], es[|es| - 1];
      assert WellFormed(es) <==> WellFormed(init) && (last.0 == CursorKey || last.1.Entry?) by {
        assert forall i :: 0 <= i < |init| ==> init[i] == es[i];
      }
      match Apply(st, post, init, posterId, now)
      case Success(t) => Step(t, post, last, posterId, now)
      case Failure(t) => Failure(t)
  }

  /** The store a result carries, whether the walk completed or not. */
  function StoreOf(r: Result<Store, Store>): Store {
    match r
    case Success(t) => t
    case Failure(t) => t
  }

  /** Once a walk has aborted, the remaining entries change nothing. */
  lemma {:induction false} AbortSticks(st: Store, post: Post, es: seq<(string, Value)>, i: nat, posterId: string -> nat, now: string)
    requires i <= |es| && Apply(st, post, es[..i], posterId, now).Failure?
    ensures Apply(st, post, es, posterId, now) == Apply(st, post, es[..i], posterId, now)
    decreases |es| - i
  {
    if i < |es| {
      assert es[..i + 1][..i] == es[..i];
      AbortSticks(st, post, es, i + 1, posterId, now);
    } else {
      assert es[..i] == es;
    }
  }

  /** `handle`: requests the post's comments, marks the job failed when
      the response has no cursor (and carries on), then upserts every
      comment. `data` is the decoded response to the request at `url`. */
  method Handle(st: Store, post: Post, data: Response, posterId: string -> nat, now: string)
    returns (url: string, failed: bool, aborted: bool, st': Store)
    ensures url == RequestUrl(post)
    ensures failed <==> !HasCursor(data)
    ensures data.None? ==> !aborted && st' == st
    ensures data.Some? ==> Apply(st, post, data.value, posterId, now) == (if aborted then Failure(st') else Success(st'))
  {
    url := RequestUrl(post);
    failed := !HasCursor(data);
    aborted := false;
    st' := st;
    if data.None? {
      return;
    }
    var es := data.value;
    var i := 0;
    while i < |es| && !aborted
      invariant 0 <= i <= |es|
      invariant Apply(st, post, es[..i], posterId, now) == (if aborted then Failure(st') else Success(st'))
      decreases |es| - i
    {
      assert es[..i + 1][..i] == es[..i];
      var r := Step(st', post, es[i], posterId, now);
      match r {
        case Success(t) => st' := t;
        case Failure(t) => st' := t; aborted := true;
      }
      i := i + 1;
    }
    if aborted {
      AbortSticks(st, post, es, i, posterId, now);
    } else {
      assert es[..i] == es;
    }
  }

  /** The key a comment entry is stored under. */
  function KeyOf(post: Post, e: (string, Value), posterId: string -> nat): CommentKey
    requires e.1.Entry?
  {
    CommentKey(post.id, posterId(e.1.userid), e.1.content, e.1.wtime)
  }

  /** Every entry other than the cursor is a comment record. */
  predicate WellFormed(es: seq<(string, Value)>) {
    forall i :: 0 <= i < |es| && es[i].0 != CursorKey ==> es[i].1.Entry?
  }

  /** On a well-formed response the walk completes; afterwards the comment
      keys are the old ones plus one per returned comment (never one for
      the cursor), every returned comment has `inserted_at` = `now`, and
      its poster is saved. */
  lemma {:induction false} ApplyKeys(st: Store, post: Post, es: seq<(string, Value)>, posterId: string -> nat, now: string)
    requires WellFormed(es)
    ensures Apply(st, post, es, posterId, now).Success?
    ensures var t := Apply(st, post, es, posterId, now).value;
      && (forall k :: k in t.comments <==>
           k in st.comments || exists i :: 0 <= i < |es| && es[i].0 != CursorKey && k == KeyOf(post, es[i], posterId))
      && (forall i :: 0 <= i < |es| && es[i].0 != CursorKey ==>
           KeyOf(post, es[i], posterId) in t.comments && t.comments[KeyOf(post, es[i], posterId)] == now
           && es[i].1.userid in t.posters)
      && (forall k :: k in st.comments && (forall i :: 0 <= i < |es| && es[i].0 != CursorKey ==> k != KeyOf(post, es[i], posterId))
           ==> t.comments[k] == st.comments[k])
    decreases |es|
  {
    if |es| > 0 {
      var init := es[..|es| - 1];
      assert WellFormed(init) by {
        forall i | 0 <= i < |init| && init[i].0 != CursorKey
          ensures init[i].1.Entry?
        {
          assert init[i] == es[i];
        }
      }
      ApplyKeys(st, post, init, posterId, now);
      var t := Apply(st, post, es, posterId, now).value;
      forall i | 0 <= i < |es| && es[i].0 != CursorKey
        ensures KeyOf(post, es[i], posterId) in t.comments && t.comments[KeyOf(post, es[i], posterId)] == now
          && es[i].1.userid in t.posters
      {
        if i < |es| - 1 {
          assert es[i] == init[i];
        }
      }
      forall k | k in t.comments
        ensures k in st.comments || exists i :: 0 <= i < |es| && es[i].0 != CursorKey && k == KeyOf(post, es[i], posterId)
      {
        var s0 := Apply(st, post, init, posterId, now).value;
        if k !in s0.comments {
          assert es[|es| - 1].0 != CursorKey && k == KeyOf(post, es[|es| - 1], posterId);
        } else if k !in st.comments {
          var i :| 0 <= i < |init| && init[i].0 != CursorKey && k == KeyOf(post, init[i], posterId);
          assert es[i] == init[i];
        }
      }
      forall k | k in st.comments && (forall i :: 0 <= i < |es| && es[i].0 != CursorKey ==> k != KeyOf(post, es[i], posterId))
        ensures t.comments[k] == st.comments[k]
      {
        forall i | 0 <= i < |init| && init[i].0 != CursorKey
          ensures k != KeyOf(post, init[i], posterId)
        {
          assert init[i] == es[i];
        }
      }
    }
  }

  /** Every comment names a saved poster. */
  predicate PostersSaved(st: Store, posterId: string -> nat) {
    forall k :: k in st.comments ==> exists u :: u in st.posters && posterId(u) == k.posterId
  }

  /** Saving the poster before its comment keeps every comment's poster
      saved, whether or not the walk completes. */
  lemma {:induction false} ApplyKeepsPostersSaved(st: Store, post: Post, es: seq<(string, Value)>, posterId: string -> nat, now: string)
    requires PostersSaved(st, posterId)
    ensures PostersSaved(StoreOf(Apply(st, post, es, posterId, now)), posterId)
    ensures st.posters.Keys <= StoreOf(Apply(st, post, es, posterId, now)).posters.Keys
    decreases |es|
  {
    if |es| > 0 {
      var init := es[..|es| - 1];
      ApplyKeepsPostersSaved(st, post, init, posterId, now);
      var s0 := StoreOf(Apply(st, post, init, posterId, now));
      var t := StoreOf(Apply(st, post, es, posterId, now));
      var e := es[|es| - 1];
      if Apply(st, post, init, posterId, now).Success? && e.0 != CursorKey && e.1.Entry? {
        forall k | k in t.comments
          ensures exists u :: u in t.posters && posterId(u) == k.posterId
        {
          if k in s0.comments {
            var u :| u in s0.posters && posterId(u) == k.posterId;
            assert u in t.posters;
          } else {
            assert e.1.userid in t.posters;
          }
        }
      } else if Apply(st, post, init, posterId, now).Success? && e.0 != CursorKey && e.1.Partial? {
        forall k | k in t.comments
          ensures exists u :: u in t.posters && posterId(u) == k.posterId
        {
          var u :| u in s0.posters && posterId(u) == k.posterId;
          assert u in t.posters;
        }
      }
    }
  }

  /** Re-running the job on the same response adds no comment and only
      refreshes `inserted_at`: the keys after the second run are the keys
      after the first. */
  lemma RerunAddsNothing(st: Store, post: Post, es: seq<(string, Value)>, posterId: string -> nat, now1: string, now2: string)
    requires WellFormed(es)
    ensures Apply(st, post, es, posterId, now1).Success?
    ensures Apply(Apply(st, post, es, posterId, now1).value, post, es, posterId, now2).Success?
    ensures Apply(Apply(st, post, es, posterId, now1).value, post, es, posterId, now2).value.comments.Keys
      == Apply(st, post, es, posterId, now1).value.comments.Keys
  {
    ApplyKeys(st, post, es, posterId, now1);
    var t1 := Apply(st, post, es, posterId, now1).value;
    ApplyKeys(t1, post, es, posterId, now2);
  }

  /** A response without a cursor still has its comments saved: the
      failure mark does not stop the job. */
  lemma FailedStillSaves(st: Store, post: Post, data: Response, posterId: string -> nat, now: string)
    requires data.Some? && !HasCursor(data) && WellFormed(data.value)
    ensures Apply(st, post, data.value, posterId, now).Success?
    ensures forall i :: 0 <= i < |data.value| && data.value[i].0 != CursorKey ==>
      KeyOf(post, data.value[i], posterId) in Apply(st, post, data.value, posterId, now).value.comments
  {
    ApplyKeys(st, post, data.value, posterId, now);
  }
}

=== FILE: numerals.dfy ===
/** Decimal digit strings: rendering a natural number the way PHP
    interpolates an integer into a string, and reading a digit string back. */
module Numerals {
  import opened Wrappers

  predicate IsDigit(ch: char) {
    '0' <= ch <= '9'
  }

  predicate AllDigits(s: string) {
    forall i :: 0 <= i < |s| ==> IsDigit(s[i])
  }

  function DigitValue(ch: char): nat
    requires IsDigit(ch)
  {
    ch as int - '0' as int
  }

  function DigitChar(d: nat): (ch: char)
    requires d < 10
    ensures IsDigit(ch) && DigitValue(ch) == d
  {
    ('0' as int + d) as char
  }

  /** The value of a digit string, most significant digit first; "" reads as 0. */
  function DigitsValue(s: string): nat
    requires AllDigits(s)
  {
    if |s| == 0 then 0 else 10 * DigitsValue(s[..|s| - 1]) + DigitValue(s[|s| - 1])
  }

  function Pow10(k: nat): (r: nat)
    ensures r >= 1
  {
    if k == 0 then 1 else 10 * Pow10(k - 1)
  }

  /** The canonical decimal rendering of `n`: digits only, no leading zero,
      and reading it back gives `n`. */
  function NatToString(n: nat): (r: string)
    ensures |r| > 0 && AllDigits(r)
    ensures r[0] == '0' ==> n == 0
    ensures DigitsValue(r) == n
  {
    if n < 10 then [DigitChar(n)]
    else
      var r := NatToString(n / 10) + [DigitChar(n % 10)];
      assert r[..|r| - 1] == NatToString(n / 10);
      r
  }

  /** A non-empty all-digit string read as a natural number. */
  function ParseNat(s: string): (r: Option<nat>)
    ensures r.Some? <==> |s| > 0 && AllDigits(s)
  {
    if |s| > 0 && AllDigits(s) then Some(DigitsValue(s)) else None
  }

  /** Rendering then reading a number gives it back; hence rendering is
      injective. */
  lemma ParseNatToString(n: nat, m: nat)
    ensures ParseNat(NatToString(n)) == Some(n)
    ensures NatToString(n) == NatToString(m) ==> n == m
  {
  }
}

=== FILE: pages.dfy ===
/** What every forum page kind shares: the structural error a page raises
    when its markup is not what the scraper expects, the pagination marker,
    and the jobs a page hands to the queue. */
module Pages {
  import opened Wrappers
  import opened PhpStr

  /** The forum's host, and the root its relative links hang from. */
  const ForumHost: string := "forum.gamer.com.tw"
  const ForumRoot: string := "https://forum.gamer.com.tw/"

  /** `NotExpectedPageException`, with its message. */
  datatype PageError = NotExpectedPage(reason: string)

  /** The pagination control as far as `hasNextPage` looks at it: `None`
      when the page has no `.pagenow` node, otherwise the whitespace-
      normalised texts of the siblings that follow the first one. */
  type Pager = Option<seq<string>>

  /** `filter('.pagenow')->first()->nextAll()->text('')`: the text of the
      first following sibling, `""` when there is none; `None` where
      `nextAll()` throws because there is no `.pagenow` node at all. */
  function FollowingText(p: Pager): (r: Option<string>)
    ensures r.None? <==> p.None?
    ensures r.Some? && r.value != "" ==> |p.value| > 0 && r.value == p.value[0]
    ensures p.Some? && |p.value| > 0 ==> r == Some(p.value[0])
  {
    match p
    case None => None
    case Some(siblings) => Some(if |siblings| == 0 then "" else siblings[0])
  }

  /** `hasNextPage()`: the truthiness of the following text, `false` when
      the lookup throws. So there is a next page exactly when a `.pagenow`
      node is followed by a sibling whose text is neither empty nor `"0"`. */
  function HasNextPage(p: Pager): (r: bool)
    ensures r <==> p.Some? && |p.value| > 0 && p.value[0] != "" && p.value[0] != "0"
  {
    match FollowingText(p)
    case None => false
    case Some(t) => Truthy(t)
  }

  /** The jobs the pages dispatch, with their payloads. */
  datatype Job =
    | ScrapeBahaPostsContinuously(threadUrl: string)
    | ScrapeBahaPosts(postsUrl: string)
    | ScrapePostsFromSearchUserContinuously(user: string, page: nat, title: Option<string>)
    | FetchPostComments(postId: nat)
}

=== FILE: php_numeric.dfy ===
/** PHP 8 numeric strings and the loose comparison `==` between two strings:
    when both sides are numeric strings they compare by numeric value,
    otherwise byte for byte. Values are compared exactly, as rationals. */
module PhpNumeric {
  import opened Wrappers
  import opened Numerals

  /** A parsed numeric string: its value is ± digits * 10^(exponent - scale),
      where `scale` counts the digits after the decimal point. */
  datatype Number = Number(negative: bool, digits: nat, scale: nat, exponent: int)

  /** The whitespace PHP allows around a numeric string: space, \t, \n, \v, \f, \r. */
  predicate IsWs(ch: char) {
    ch == ' ' || 9 <= ch as int <= 13
  }

  function LeadingWs(s: string): (n: nat)
    ensures n <= |s|
    ensures forall i :: 0 <= i < n ==> IsWs(s[i])
    ensures n < |s| ==> !IsWs(s[n])
  {
    if |s| == 0 || !IsWs(s[0]) then 0 else 1 + LeadingWs(s[1..])
  }

  function TrailingWs(s: string): (n: nat)
    ensures n <= |s|
    ensures forall i :: |s| - n <= i < |s| ==> IsWs(s[i])
    ensures n < |s| ==> !IsWs(s[|s| - 1 - n])
  {
    if |s| == 0 || !IsWs(s[|s| - 1]) then 0 else 1 + TrailingWs(s[..|s| - 1])
  }

  /** `s` without its leading and trailing whitespace. */
  function StripWs(s: string): (r: string)
    ensures |r| > 0 ==> !IsWs(r[0]) && !IsWs(r[|r| - 1])
  {
    var a := LeadingWs(s);
    if a == |s| then ""
    else
      var b := TrailingWs(s);
      assert a < |s| - b by { assert !IsWs(s[a]); }
      s[a..|s| - b]
  }

  /** The first position of `e` or `E`. */
  function ExponentMark(s: string): (r: Option<nat>)
    ensures r.Some? ==> r.value < |s| && (s[r.value] == 'e' || s[r.value] == 'E')
  {
    if |s| == 0 then None
    else if s[0] == 'e' || s[0] == 'E' then Some(0)
    else match ExponentMark(s[1..])
      case None => None
      case Some(k) => Some(k + 1)
  }

  /** The first position of `.`. */
  function PointMark(s: string): (r: Option<nat>)
    ensures r.Some? ==> r.value < |s| && s[r.value] == '.'
    ensures r.None? ==> '.' !in s
  {
    if |s| == 0 then None
    else if s[0] == '.' then Some(0)
    else match PointMark(s[1..])
      case None => None
      case Some(k) => Some(k + 1)
  }

  /** An exponent: an optional sign followed by at least one digit. */
  function ParseExponent(x: string): Option<int> {
    if |x| > 0 && (x[0] == '+' || x[0] == '-') then
      if |x| > 1 && AllDigits(x[1..]) then
        var v: int := DigitsValue(x[1..]);
        Some(if x[0] == '-' then -v else v)
      else None
    else if |x| > 0 && AllDigits(x) then Some(DigitsValue(x))
    else None
  }

  /** A mantissa: digits, optionally a point and more digits, with at least
      one digit on either side of the point (`1`, `1.`, `.5`, `1.5`). */
  function ParseMantissa(m: string, negative: bool, exponent: int): (r: Option<Number>)
    ensures r.Some? ==> r.value.negative == negative && r.value.exponent == exponent
  {
    match PointMark(m)
    case None =>
      if |m| > 0 && AllDigits(m) then Some(Number(negative, DigitsValue(m), 0, exponent)) else None
    case Some(k) =>
      var ip, fp := m[..k], m[k + 1..];
      if |ip| + |fp| > 0 && AllDigits(ip) && AllDigits(fp) then
        assert AllDigits(ip + fp);
        Some(Number(negative, DigitsValue(ip + fp), |fp|, exponent))
      else None
  }

  function ParseUnsigned(u: string, negative: bool): Option<Number> {
    match ExponentMark(u)
    case None => ParseMantissa(u, negative, 0)
    case Some(k) =>
      match ParseExponent(u[k + 1..])
      case None => None
      case Some(e) => ParseMantissa(u[..k], negative, e)
  }

  /** PHP 8's numeric-string test and value: optional surrounding whitespace,
      an optional sign, a mantissa and an optional exponent. `None` for a
      string that is not numeric (including leading-numeric ones like "1a"). */
  function ParseNumber(s: string): Option<Number> {
    var b := StripWs(s);
    if |b| > 0 && (b[0] == '+' || b[0] == '-') then ParseUnsigned(b[1..], b[0] == '-')
    else ParseUnsigned(b, false)
  }

  function Shift(n: Number): int {
    n.exponent - n.scale
  }

  function Min(a: int, b: int): int {
    if a <= b then a else b
  }

  /** Exact equality of two numeric values, on integers: both are brought to
      the smaller power of ten and their digit counts compared; zero equals
      zero whatever its sign. */
  predicate SameValue(a: Number, b: Number) {
    var m := Min(Shift(a), Shift(b));
    var x := a.digits * Pow10(Shift(a) - m);
    var y := b.digits * Pow10(Shift(b) - m);
    (x == 0 && y == 0) || (a.negative == b.negative && x == y)
  }

  /** PHP 8 `$a == $b` for two strings. */
  predicate LooseEquals(a: string, b: string) {
    match (ParseNumber(a), ParseNumber(b))
    case (Some(x), Some(y)) => SameValue(x, y)
    case _ => a == b
  }

  /** d * 10^e as a real, for any integer e: a whole number for e >= 0,
      otherwise a tenth of d * 10^(e+1). */
  ghost function Scaled(d: nat, e: int): real
    decreases if e >= 0 then 0 else -e
  {
    if e >= 0 then (d * Pow10(e)) as real else Scaled(d, e + 1) / 10.0
  }

  /** The absolute value a parsed numeric string denotes. */
  ghost function Magnitude(n: Number): real {
    Scaled(n.digits, Shift(n))
  }

  /** The rational value a parsed numeric string denotes. */
  ghost function RealValue(n: Number): real {
    if n.negative then -Magnitude(n) else Magnitude(n)
  }

  lemma TenTimes(d: nat, p: nat)
    ensures (10 * d) * p == d * (10 * p)
  {
  }

  lemma MulStrict(x: nat, y: nat, p: nat)
    requires x < y && p >= 1
    ensures x * p < y * p
  {
  }

  /** Ten times the digits is ten times the value. */
  lemma {:induction false} ScaledTen(d: nat, e: int)
    ensures Scaled(10 * d, e) == 10.0 * Scaled(d, e)
    decreases if e >= 0 then 0 else -e
  {
    if e >= 0 {
      TenTimes(d, Pow10(e));
      assert (10 * d) * Pow10(e) == 10 * (d * Pow10(e));
    } else {
      ScaledTen(d, e + 1);
    }
  }

  /** A trailing zero of the digits moves into the exponent. */
  lemma ScaledShiftOne(d: nat, e: int)
    ensures Scaled(10 * d, e) == Scaled(d, e + 1)
  {
    if e >= 0 {
      TenTimes(d, Pow10(e));
    } else {
      ScaledTen(d, e + 1);
    }
  }

  /** Moving a power of ten from the exponent into the digits. */
  lemma {:induction false} ScaledDigits(d: nat, x: int, m: int)
    requires m <= x
    ensures Scaled(d, x) == Scaled(d * Pow10(x - m), m)
    decreases x - m
  {
    if m < x {
      var p := Pow10(x - m - 1);
      ScaledDigits(d, x, m + 1);
      assert d * Pow10(x - m) == 10 * (d * p) by {
        TenTimes(d, p);
      }
      ScaledShiftOne(d * p, m);
    } else {
      assert d * Pow10(x - m) == d;
    }
  }

  /** At a fixed exponent, more digits is a larger value. */
  lemma {:induction false} ScaledStrict(x: nat, y: nat, e: int)
    requires x < y
    ensures Scaled(x, e) < Scaled(y, e)
    decreases if e >= 0 then 0 else -e
  {
    if e >= 0 {
      MulStrict(x, y, Pow10(e));
    } else {
      ScaledStrict(x, y, e + 1);
    }
  }

  /** At a fixed exponent, the value is zero exactly for zero digits, and
      equal values have equal digits. */
  lemma ScaledCompare(x: nat, y: nat, e: int)
    ensures Scaled(x, e) >= 0.0 && (Scaled(x, e) == 0.0 <==> x == 0)
    ensures Scaled(x, e) == Scaled(y, e) <==> x == y
  {
    ScaledZero(e);
    if x > 0 {
      ScaledStrict(0, x, e);
    }
    if x < y {
      ScaledStrict(x, y, e);
    } else if y < x {
      ScaledStrict(y, x, e);
    }
  }

  lemma {:induction false} ScaledZero(e: int)
    ensures Scaled(0, e) == 0.0
    decreases if e >= 0 then 0 else -e
  {
    if e < 0 {
      ScaledZero(e + 1);
    }
  }

  /** The integer test `SameValue` is exactly equality of the rational values. */
  lemma SameValueIsEqualValue(a: Number, b: Number)
    ensures SameValue(a, b) <==> RealValue(a) == RealValue(b)
  {
    var m := Min(Shift(a), Shift(b));
    var x := a.digits * Pow10(Shift(a) - m);
    var y := b.digits * Pow10(Shift(b) - m);
    ScaledDigits(a.digits, Shift(a), m);
    ScaledDigits(b.digits, Shift(b), m);
    ScaledCompare(x, y, m);
    ScaledCompare(y, x, m);
  }

  /** A string loosely equals "1" exactly when it is a numeric string whose
      value is one. */
  lemma LooseEqualsOneMeansValueOne(s: string)
    ensures LooseEquals(s, "1") <==> ParseNumber(s).Some? && RealValue(ParseNumber(s).value) == 1.0
  {
    var one := Number(false, 1, 0, 0);
    assert ParseNumber("1") == Some(one) by {
      assert StripWs("1") == "1";
      assert ExponentMark("1") == None;
      assert PointMark("1") == None;
      assert DigitsValue("1") == 1;
    }
    assert RealValue(one) == 1.0;
    if ParseNumber(s).Some? {
      SameValueIsEqualValue(ParseNumber(s).value, one);
    }
  }
}

=== FILE: php_str.dfy ===
/** The PHP string built-ins and Laravel `Str` helpers the scraper relies on,
    over `seq<char>`. Positions are character positions; every needle the
    callers pass is an ASCII literal, so byte and character positions agree. */
module PhpStr {
  import opened Wrappers

  /** `t` occurs in `s` starting at index `i`. */
  predicate OccursAt(s: string, t: string, i: int) {
    0 <= i && i + |t| <= |s| && s[i..i + |t|] == t
  }

  predicate Contains(s: string, t: string) {
    exists i | 0 <= i <= |s| - |t| :: OccursAt(s, t, i)
  }

  predicate StartsWith(s: string, p: string) {
    |p| <= |s| && s[..|p|] == p
  }

  predicate EndsWith(s: string, p: string) {
    |p| <= |s| && s[|s| - |p|..] == p
  }

  /** PHP truthiness of a string: exactly "" and "0" are falsy. */
  predicate Truthy(s: string) {
    s != "" && s != "0"
  }

  /** PHP truthiness of a nullable string: `null` is falsy too. */
  predicate TruthyOpt(s: Option<string>) {
    s.Some? && Truthy(s.value)
  }

  /** `Str::startsWith` with one needle: an empty needle never matches. */
  predicate StrStartsWith(haystack: string, needle: string) {
    needle != "" && StartsWith(haystack, needle)
  }

  /** `Str::contains` with one needle: an empty needle never matches. */
  predicate StrContains(haystack: string, needle: string) {
    needle != "" && Contains(haystack, needle)
  }

  /** The greatest index `j <= i` at which `t` occurs in `s`. */
  function LastIndexUpTo(s: string, t: string, i: int): (r: Option<nat>)
    ensures r.Some? ==> r.value <= i && OccursAt(s, t, r.value)
    ensures r.Some? ==> forall j :: r.value < j <= i ==> !OccursAt(s, t, j)
    ensures r.None? ==> forall j :: j <= i ==> !OccursAt(s, t, j)
    decreases if i < 0 then 0 else i + 1
  {
    if i < 0 then None
    else if OccursAt(s, t, i) then Some(i)
    else LastIndexUpTo(s, t, i - 1)
  }

  /** The least index `j >= i` at which `t` occurs in `s`. */
  function IndexFrom(s: string, t: string, i: nat): (r: Option<nat>)
    ensures r.Some? ==> i <= r.value && OccursAt(s, t, r.value)
    ensures r.Some? ==> forall j :: i <= j < r.value ==> !OccursAt(s, t, j)
    ensures r.None? ==> forall j :: i <= j ==> !OccursAt(s, t, j)
    decreases |s| + 1 - i
  {
    if i > |s| then None
    else if OccursAt(s, t, i) then Some(i)
    else IndexFrom(s, t, i + 1)
  }

  /** `strrpos`: the position of the last occurrence of `t`. */
  function LastIndexOf(s: string, t: string): (r: Option<nat>)
    ensures r.Some? ==> OccursAt(s, t, r.value)
    ensures r.Some? ==> forall j :: r.value < j ==> !OccursAt(s, t, j)
    ensures r.None? <==> !Contains(s, t)
  {
    LastIndexUpTo(s, t, |s| - |t|)
  }

  /** `strpos`: the position of the first occurrence of `t`. */
  function IndexOf(s: string, t: string): (r: Option<nat>)
    ensures r.Some? ==> OccursAt(s, t, r.value)
    ensures r.Some? ==> forall j :: 0 <= j < r.value ==> !OccursAt(s, t, j)
    ensures r.None? <==> !Contains(s, t)
  {
    IndexFrom(s, t, 0)
  }

  /** `r` is what follows the last occurrence of `t` in `s`. */
  ghost predicate IsAfterLast(s: string, t: string, r: string) {
    && |t| + |r| <= |s|
    && EndsWith(s, r)
    && OccursAt(s, t, |s| - |r| - |t|)
    && forall j :: |s| - |r| - |t| < j ==> !OccursAt(s, t, j)
  }

  /** `r` is what follows the first occurrence of `t` in `s`. */
  ghost predicate IsAfterFirst(s: string, t: string, r: string) {
    && |t| + |r| <= |s|
    && EndsWith(s, r)
    && OccursAt(s, t, |s| - |r| - |t|)
    && forall j :: 0 <= j < |s| - |r| - |t| ==> !OccursAt(s, t, j)
  }

  /** `r` is what precedes the last occurrence of `t` in `s`. */
  ghost predicate IsBeforeLast(s: string, t: string, r: string) {
    && StartsWith(s, r)
    && OccursAt(s, t, |r|)
    && forall j :: |r| < j ==> !OccursAt(s, t, j)
  }

  /** `Str::afterLast`: the text after the last occurrence of `search`;
      the whole subject when `search` is empty or absent. */
  function AfterLast(subject: string, search: string): (r: string)
    ensures search == "" || !Contains(subject, search) ==> r == subject
    ensures search != "" && Contains(subject, search) ==> IsAfterLast(subject, search, r)
  {
    if search == "" then subject
    else match LastIndexOf(subject, search)
      case None => subject
      case Some(i) => subject[i + |search|..]
  }

  /** `Str::after`: the text after the first occurrence of `search`;
      the whole subject when `search` is empty or absent. */
  function After(subject: string, search: string): (r: string)
    ensures search == "" || !Contains(subject, search) ==> r == subject
    ensures search != "" && Contains(subject, search) ==> IsAfterFirst(subject, search, r)
  {
    if search == "" then subject
    else match IndexOf(subject, search)
      case None => subject
      case Some(i) => subject[i + |search|..]
  }

  /** `Str::beforeLast`: the text before the last occurrence of `search`;
      the whole subject when `search` is empty or absent. */
  function BeforeLast(subject: string, search: string): (r: string)
    ensures search == "" || !Contains(subject, search) ==> r == subject
    ensures search != "" && Contains(subject, search) ==> IsBeforeLast(subject, search, r)
  {
    if search == "" then subject
    else match LastIndexOf(subject, search)
      case None => subject
      case Some(i) => subject[..i]
  }

  /** `Str::between`: `beforeLast(after(subject, from), to)`, or the subject
      unchanged when either delimiter is empty. */
  function Between(subject: string, from: string, to: string): (r: string)
    ensures from == "" || to == "" ==> r == subject
    ensures from != "" && to != "" ==> r == BeforeLast(After(subject, from), to)
  {
    if from == "" || to == "" then subject
    else BeforeLast(After(subject, from), to)
  }

  /** What follows the last occurrence of a needle is determined uniquely. */
  lemma IsAfterLastUnique(s: string, t: string, r1: string, r2: string)
    requires IsAfterLast(s, t, r1) && IsAfterLast(s, t, r2)
    ensures r1 == r2
  {
    var p1, p2 := |s| - |r1| - |t|, |s| - |r2| - |t|;
    assert !(p1 < p2) by { assert OccursAt(s, t, p2); }
    assert !(p2 < p1) by { assert OccursAt(s, t, p1); }
  }

  /** What follows the first occurrence of a needle is determined uniquely. */
  lemma IsAfterFirstUnique(s: string, t: string, r1: string, r2: string)
    requires IsAfterFirst(s, t, r1) && IsAfterFirst(s, t, r2)
    ensures r1 == r2
  {
    var p1, p2 := |s| - |r1| - |t|, |s| - |r2| - |t|;
    assert !(p1 < p2) by { assert OccursAt(s, t, p1); }
    assert !(p2 < p1) by { assert OccursAt(s, t, p2); }
  }

  /** What precedes the last occurrence of a needle is determined uniquely. */
  lemma IsBeforeLastUnique(s: string, t: string, r1: string, r2: string)
    requires IsBeforeLast(s, t, r1) && IsBeforeLast(s, t, r2)
    ensures r1 == r2
  {
    assert !(|r1| < |r2|) by { assert OccursAt(s, t, |r2|); }
    assert !(|r2| < |r1|) by { assert OccursAt(s, t, |r1|); }
  }

  /** `afterLast` returns any text that follows a last occurrence. */
  lemma AfterLastIs(s: string, t: string, r: string)
    requires t != "" && IsAfterLast(s, t, r)
    ensures AfterLast(s, t) == r
  {
    assert OccursAt(s, t, |s| - |r| - |t|);
    IsAfterLastUnique(s, t, AfterLast(s, t), r);
  }

  /** `after` returns any text that follows a first occurrence. */
  lemma AfterIs(s: string, t: string, r: string)
    requires t != "" && IsAfterFirst(s, t, r)
    ensures After(s, t) == r
  {
    assert OccursAt(s, t, |s| - |r| - |t|);
    IsAfterFirstUnique(s, t, After(s, t), r);
  }

  /** `beforeLast` returns any text that precedes a last occurrence. */
  lemma BeforeLastIs(s: string, t: string, r: string)
    requires t != "" && IsBeforeLast(s, t, r)
    ensures BeforeLast(s, t) == r
  {
    assert OccursAt(s, t, |r|);
    IsBeforeLastUnique(s, t, BeforeLast(s, t), r);
  }

  /** A needle that starts with `c` cannot occur in a `c`-free text. */
  lemma NoOccurrenceWithout(s: string, t: string, c: char)
    requires |t| > 0 && t[0] == c && c !in s
    ensures !Contains(s, t)
  {
  }

  /** An occurrence in the second part of a concatenation is an occurrence
      in that part. */
  lemma OccursShift(p: string, u: string, t: string, j: int)
    requires OccursAt(p + u, t, j) && j >= |p|
    ensures OccursAt(u, t, j - |p|)
  {
    assert (p + u)[j..j + |t|] == u[j - |p|..j - |p| + |t|];
  }

  lemma OccursInSuffix(s: string, t: string, k: int, j: int)
    requires 0 <= k <= |s| && OccursAt(s[k..], t, j)
    ensures OccursAt(s, t, k + j)
  {
    assert s[k..][j..j + |t|] == s[k + j..k + j + |t|];
  }

  /** What follows the last occurrence of a separator of two or more
      characters, together with the separator's last character, holds no
      further occurrence of the separator. */
  lemma AfterLastTail(s: string, t: string, r: string)
    requires |t| > 1 && IsAfterLast(s, t, r)
    ensures !Contains(t[|t| - 1..] + r, t)
  {
    var k := |s| - |r| - 1;
    assert s[k..] == t[|t| - 1..] + r by {
      assert s[k] == s[|s| - |r| - |t|..|s| - |r|][|t| - 1];
      assert s[k + 1..] == r;
    }
    if Contains(t[|t| - 1..] + r, t) {
      var j :| 0 <= j <= |t[|t| - 1..] + r| - |t| && OccursAt(t[|t| - 1..] + r, t, j);
      OccursInSuffix(s, t, k, j);
    }
  }

  /** The number of leading `c` characters of `s`. */
  function LeadingRun(s: string, c: char): (n: nat)
    ensures n <= |s|
    ensures forall i :: 0 <= i < n ==> s[i] == c
    ensures n < |s| ==> s[n] != c
  {
    if |s| == 0 || s[0] != c then 0 else 1 + LeadingRun(s[1..], c)
  }

  /** The number of trailing `c` characters of `s`. */
  function TrailingRun(s: string, c: char): (n: nat)
    ensures n <= |s|
    ensures forall i :: |s| - n <= i < |s| ==> s[i] == c
    ensures n < |s| ==> s[|s| - 1 - n] != c
  {
    if |s| == 0 || s[|s| - 1] != c then 0 else 1 + TrailingRun(s[..|s| - 1], c)
  }

  /** PHP `trim($s, c)` with a one-character list: strips every leading and
      trailing `c`. The result is the infix of `s` between the two runs. */
  function Trim(s: string, c: char): (r: string)
    ensures |r| > 0 ==> r[0] != c && r[|r| - 1] != c
    ensures r == "" <==> forall i :: 0 <= i < |s| ==> s[i] == c
    ensures r != "" ==> OccursAt(s, r, LeadingRun(s, c)) && LeadingRun(s, c) + |r| + TrailingRun(s, c) == |s|
  {
    var a := LeadingRun(s, c);
    if a == |s| then ""
    else
      var b := TrailingRun(s, c);
      assert a < |s| - b by { assert s[a] != c; }
      s[a..|s| - b]
  }

  /** Trimming a string that is `c`-free at both ends after padding it with
      `k` copies of `c` on the left gives the string back. */
  lemma TrimLeftPadded(s: string, c: char, k: nat)
    requires |s| > 0 && s[0] != c && s[|s| - 1] != c
    ensures Trim(Repeat(c, k) + s, c) == s
  {
    var p := Repeat(c, k) + s;
    PaddedRuns(s, c, k, p);
    TrimAt(p, c, k, 0);
    PaddedSuffix(s, c, k, p);
  }

  lemma PaddedSuffix(s: string, c: char, k: nat, p: string)
    requires p == Repeat(c, k) + s
    ensures p[k..|p| - 0] == s
  {
  }

  /** Trimming a string with runs of known lengths at its ends. */
  lemma TrimAt(s: string, c: char, a: nat, b: nat)
    requires a + b < |s| && LeadingRun(s, c) == a && TrailingRun(s, c) == b
    ensures Trim(s, c) == s[a..|s| - b]
  {
    assert s[a] != c;
  }

  lemma PaddedRuns(s: string, c: char, k: nat, p: string)
    requires |s| > 0 && s[0] != c && s[|s| - 1] != c && p == Repeat(c, k) + s
    ensures LeadingRun(p, c) == k && TrailingRun(p, c) == 0
  {
    assert p[k] != c;
  }

  function Repeat(c: char, k: nat): (r: string)
    ensures |r| == k && forall i :: 0 <= i < k ==> r[i] == c
  {
    if k == 0 then "" else [c] + Repeat(c, k - 1)
  }

  /** Trimming is idempotent. */
  lemma TrimIdempotent(s: string, c: char)
    ensures Trim(Trim(s, c), c) == Trim(s, c)
  {
    var r := Trim(s, c);
    if r != "" {
      assert LeadingRun(r, c) == 0;
      assert TrailingRun(r, c) == 0;
      assert r[0..|r|] == r;
    }
  }

  /** Number of occurrences of `c` in `s`. */
  function CountChar(s: string, c: char): nat {
    if |s| == 0 then 0 else (if s[0] == c then 1 else 0) + CountChar(s[1..], c)
  }

  /** Occurrences in a concatenation add up. */
  lemma {:induction false} CountCharConcat(a: string, b: string, c: char)
    ensures CountChar(a + b, c) == CountChar(a, c) + CountChar(b, c)
    decreases |a|
  {
    if |a| == 0 {
      assert a + b == b;
    } else {
      assert (a + b)[1..] == a[1..] + b;
      CountCharConcat(a[1..], b, c);
    }
  }

  /** A character that is not there is counted zero times. */
  lemma {:induction false} CountCharAbsent(s: string, c: char)
    requires c !in s
    ensures CountChar(s, c) == 0
    decreases |s|
  {
    if |s| > 0 {
      CountCharAbsent(s[1..], c);
    }
  }

  /** PHP `implode`, the inverse of `Explode`. */
  function Implode(c: char, parts: seq<string>): string {
    if |parts| == 0 then ""
    else if |parts| == 1 then parts[0]
    else parts[0] + [c] + Implode(c, parts[1..])
  }

  /** PHP `explode` with a one-character delimiter: the maximal `c`-free
      pieces between delimiters. Empty pieces are kept, so `explode` of ""
      is one empty piece and the piece count is one more than the
      delimiter count. */
  function Explode(c: char, s: string): (r: seq<string>)
    ensures |r| == CountChar(s, c) + 1
    ensures forall k :: 0 <= k < |r| ==> c !in r[k]
    ensures Implode(c, r) == s
    decreases |s|
  {
    if |s| == 0 then [""]
    else
      var rest := Explode(c, s[1..]);
      if s[0] == c then
        assert Implode(c, [""] + rest) == [c] + Implode(c, rest) by {
          assert ([""] + rest)[1..] == rest;
        }
        assert s == [c] + s[1..];
        [""] + rest
      else
        var r := [[s[0]] + rest[0]] + rest[1..];
        assert Implode(c, r) == [s[0]] + Implode(c, rest) by {
          if |rest| > 1 {
            assert r[1..] == rest[1..];
            assert Implode(c, rest) == rest[0] + [c] + Implode(c, rest[1..]);
          }
        }
        assert s == [s[0]] + s[1..];
        r
  }
}

=== FILE: posts.dfy ===
/** A forum post's music links: on creation the post's content is scanned
    for links, the post's stored links are replaced by what was found (when
    anything was), the `has_music` flag records whether anything was, and
    the comment fetch is queued. The database is an in-memory store. */
module Posts {
  import opened Wrappers
  import opened Collections
  import opened Pages

  /** A link recognised in a post's content: the site's name and the
      resource id on that site. */
  datatype LinkData = LinkData(site: string, resourceId: string)

  /** A saved `links` row. */
  datatype LinkRow = LinkRow(postId: nat, posterId: nat, link: LinkData)

  /** A saved `posts` row (the columns the model needs). */
  datatype PostRow = PostRow(no: nat, posterId: nat, content: string, hasMusic: bool)

  /** `posts` keyed by id, and the `links` table. */
  datatype Store = Store(posts: map<nat, PostRow>, links: set<LinkRow>)

  /** `LinkCollection::fromText`: what the link recognisers make of a text,
      one entry per candidate URL, `None` where no site matched. */
  type Recogniser = string -> seq<Option<LinkData>>

  /** The values of the `Some` entries, in order. */
  function Somes<T>(s: seq<Option<T>>): (r: seq<T>)
    ensures forall i :: 0 <= i < |r| ==> Some(r[i]) in s
    ensures forall i :: 0 <= i < |s| && s[i].Some? ==> s[i].value in r
    ensures |r| <= |s|
  {
    if |s| == 0 then []
    else
      var rest := Somes(s[1..]);
      if s[0].Some? then [s[0].value] + rest else rest
  }

  /** `->unique()->filter()->get()`: one copy of every recognised link. */
  function Extracted(found: seq<Option<LinkData>>): (r: seq<LinkData>)
    ensures NoDuplicates(r)
    ensures forall l :: l in r <==> Some(l) in found
  {
    var u := Unique(found);
    var r := Somes(u);
    assert NoDuplicates(r) by { SomesOfDistinct(u); }
    r
  }

  lemma {:induction false} SomesOfDistinct<T>(s: seq<Option<T>>)
    requires NoDuplicates(s)
    ensures NoDuplicates(Somes(s))
    decreases |s|
  {
    if |s| > 0 {
      assert NoDuplicates(s[1..]);
      SomesOfDistinct(s[1..]);
      if s[0].Some? {
        var rest := Somes(s[1..]);
        assert s[0].value !in rest;
      }
    }
  }

  /** The links stored for post `id`. */
  function LinksOf(links: set<LinkRow>, id: nat): set<LinkRow> {
    set l | l in links && l.postId == id
  }

  /** The rows `extractLinks` saves for post `id`. */
  function Rows(id: nat, posterId: nat, found: seq<LinkData>): set<LinkRow> {
    set l | l in found :: LinkRow(id, posterId, l)
  }

  /** `extractLinks` on post `id`: when something is recognised, the post's
      links are deleted and the recognised ones saved with the post's id
      and poster; `has_music` becomes whether anything was recognised. */
  function ExtractLinks(s: Store, id: nat, fromText: Recogniser): (r: Store)
    requires id in s.posts
    ensures r.posts.Keys == s.posts.Keys
    ensures forall k :: k in s.posts && k != id ==> r.posts[k] == s.posts[k]
    ensures r.posts[id] == s.posts[id].(hasMusic := r.posts[id].hasMusic)
    ensures r.posts[id].hasMusic <==> exists i :: 0 <= i < |fromText(s.posts[id].content)| && fromText(s.posts[id].content)[i].Some?
    ensures forall k :: k != id ==> LinksOf(r.links, k) == LinksOf(s.links, k)
    ensures r.posts[id].hasMusic ==> forall l :: l in LinksOf(r.links, id) <==>
      l.posterId == s.posts[id].posterId && l.postId == id && Some(l.link) in fromText(s.posts[id].content)
    ensures !r.posts[id].hasMusic ==> r.links == s.links
  {
    var post := s.posts[id];
    var found := fromText(post.content);
    var links := Extracted(found);
    var hasMusic := |links| > 0;
    assert hasMusic <==> exists i :: 0 <= i < |found| && found[i].Some? by {
      if hasMusic {
        assert Some(links[0]) in found;
      }
      if exists i :: 0 <= i < |found| && found[i].Some? {
        var i :| 0 <= i < |found| && found[i].Some?;
        assert found[i].value in links;
      }
    }
    var newLinks :=
      if hasMusic then (s.links - LinksOf(s.links, id)) + Rows(id, post.posterId, links)
      else s.links;
    Store(s.posts[id := post.(hasMusic := hasMusic)], newLinks)
  }

  /** Extracting again from the same content changes nothing: the links are
      replaced by the same links. */
  lemma ExtractLinksIdempotent(s: Store, id: nat, fromText: Recogniser)
    requires id in s.posts
    ensures ExtractLinks(ExtractLinks(s, id, fromText), id, fromText) == ExtractLinks(s, id, fromText)
  {
    var r1 := ExtractLinks(s, id, fromText);
    var r2 := ExtractLinks(r1, id, fromText);
    assert r1.posts[id].content == s.posts[id].content;
    assert r2.posts == r1.posts;
    if r1.posts[id].hasMusic {
      forall l | l in r2.links
        ensures l in r1.links
      {
        if l.postId != id {
          assert l in LinksOf(r2.links, l.postId);
        } else {
          assert l in LinksOf(r2.links, id);
        }
      }
      forall l | l in r1.links
        ensures l in r2.links
      {
        if l.postId != id {
          assert l in LinksOf(r1.links, l.postId);
        } else {
          assert l in LinksOf(r1.links, id);
        }
      }
    }
  }

  /** Replace, not merge: once a later extraction finds something, the
      post's links are exactly what it found, whatever was there before. */
  lemma ExtractLinksReplaces(s: Store, id: nat, first: Recogniser, second: Recogniser)
    requires id in s.posts
    requires exists i :: 0 <= i < |second(s.posts[id].content)| && second(s.posts[id].content)[i].Some?
    ensures LinksOf(ExtractLinks(ExtractLinks(s, id, first), id, second).links, id)
      == Rows(id, s.posts[id].posterId, Extracted(second(s.posts[id].content)))
  {
    var r1 := ExtractLinks(s, id, first);
    assert r1.posts[id].content == s.posts[id].content;
    assert r1.posts[id].posterId == s.posts[id].posterId;
  }

  /** Content in which no link is recognised (the post `foo bar baz`)
      leaves the links alone and clears `has_music`. */
  lemma NoLinksClearsHasMusic(s: Store, id: nat, fromText: Recogniser)
    requires id in s.posts
    requires forall i :: 0 <= i < |fromText(s.posts[id].content)| ==> fromText(s.posts[id].content)[i].None?
    ensures !ExtractLinks(s, id, fromText).posts[id].hasMusic
    ensures ExtractLinks(s, id, fromText).links == s.links
  {
  }

  /** The `created` hook: the post is inserted, its links extracted, and
      then its comment fetch queued. */
  function Create(s: Store, id: nat, post: PostRow, fromText: Recogniser): (r: (Store, seq<Job>))
    requires id !in s.posts
    ensures r.1 == [FetchPostComments(id)]
    ensures r.0.posts.Keys == s.posts.Keys + {id}
    ensures r.0.posts[id] == post.(hasMusic := r.0.posts[id].hasMusic)
    ensures forall k :: k in s.posts ==> r.0.posts[k] == s.posts[k]
  {
    (ExtractLinks(Store(s.posts[id := post], s.links), id, fromText), [FetchPostComments(id)])
  }

  /** After creation, the post's links are what its content yields and
      `has_music` says whether it yielded any; the links of other posts are
      untouched. */
  lemma CreateStoresRecognisedLinks(s: Store, id: nat, post: PostRow, fromText: Recogniser)
    requires id !in s.posts && LinksOf(s.links, id) == {}
    ensures LinksOf(Create(s, id, post, fromText).0.links, id)
      == Rows(id, post.posterId, Extracted(fromText(post.content)))
    ensures Create(s, id, post, fromText).0.posts[id].hasMusic <==> |Extracted(fromText(post.content))| > 0
    ensures forall k :: k != id ==> LinksOf(Create(s, id, post, fromText).0.links, k) == LinksOf(s.links, k)
  {
    var found := fromText(post.content);
    var links := Extracted(found);
    if |links| == 0 {
      assert Rows(id, post.posterId, links) == {};
      assert forall i :: 0 <= i < |found| ==> found[i].None?;
    } else {
      assert Some(links[0]) in found;
    }
  }
}

=== FILE: search_title.dfy ===
/** The title-search listing page of the forum (`B.php?...&qt=1&q=...`):
    which URLs it accepts, which rows it keeps, the optional user filter,
    the thread links it builds and dispatches, and the walk to the next
    result page. The fetched HTML is an abstract document. */
module SearchTitles {
  import opened Wrappers
  import opened PhpStr
  import opened PhpNumeric
  import opened Urls
  import opened Collections
  import opened Pages

  /** One `.b-list__row` node: whether it holds a `.b-list__main` (ad rows
      do not), the `href` of its first `.b-list__main__title` (`None` when
      the row has no such node), and the text of its `.b-list__count__user`
      (`""` when there is none). */
  datatype Row = Row(hasMain: bool, href: Option<string>, user: string)

  /** A fetched listing: its rows in document order, the whole body text
      and the pagination control. */
  datatype Document = Document(rows: seq<Row>, body: string, pager: Pager)

  /** A constructed page: the URL it was fetched from, the document, and
      the current result list. */
  datatype SearchTitle = SearchTitle(url: Url, doc: Document, lists: seq<Row>)

  /** The marker of the "nothing found" page. */
  const NoResultMarker: string := "很抱歉，無法搜尋到有關"

  /** PHP `$value == '1'` for a query value that may be `null`:
      `null == '1'` is false. */
  predicate LooseEqualsOne(v: Option<string>) {
    v.Some? && LooseEquals(v.value, "1")
  }

  /** `qt` loosely equals `'1'` exactly when it is present and is a numeric
      string of value one (`1`, `01`, ` 1`, `1.0`, `1e0`, `+1`, ...). */
  lemma QtIsOne(u: Url)
    ensures LooseEqualsOne(QueryValue(u, "qt")) <==>
      && HasKey(u.query, "qt")
      && ParseNumber(Lookup(u.query, "qt").value).Some?
      && RealValue(ParseNumber(Lookup(u.query, "qt").value).value) == 1.0
  {
    if HasKey(u.query, "qt") {
      LooseEqualsOneMeansValueOne(Lookup(u.query, "qt").value);
    }
  }

  /** `ensureIsExpectedUrl`: a title search on the forum host. */
  function EnsureIsExpectedUrl(u: Url): (r: Result<(), PageError>)
    ensures r.Success? <==>
      && u.domain == ForumHost
      && u.path == "/B.php"
      && HasKey(u.query, "q")
      && HasKey(u.query, "qt")
      && ParseNumber(Lookup(u.query, "qt").value).Some?
      && RealValue(ParseNumber(Lookup(u.query, "qt").value).value) == 1.0
  {
    QtIsOne(u);
    if u.domain == ForumHost && u.path == "/B.php" && HasQuery(u, "q") && LooseEqualsOne(QueryValue(u, "qt"))
    then Success(())
    else Failure(NotExpectedPage(""))
  }

  predicate IsResultRow(row: Row) {
    row.hasMain
  }

  /** `getResultList`: the rows holding a `.b-list__main`, in order; an
      empty list is an error unless the body says nothing was found. */
  function GetResultList(doc: Document): (r: Result<seq<Row>, PageError>)
    ensures r.Failure? <==>
      (forall i :: 0 <= i < |doc.rows| ==> !doc.rows[i].hasMain) && !Contains(doc.body, NoResultMarker)
    ensures r.Success? ==> r.value == Filter(doc.rows, IsResultRow)
  {
    var lists := Filter(doc.rows, IsResultRow);
    assert |lists| == 0 <==> forall i :: 0 <= i < |doc.rows| ==> !doc.rows[i].hasMain by {
      if |lists| > 0 {
        assert lists[0].hasMain && lists[0] in doc.rows;
      }
    }
    if |lists| == 0 && !StrContains(doc.body, NoResultMarker)
    then Failure(NotExpectedPage("Has the html structure or CSS changed?"))
    else Success(lists)
  }

  /** The constructor: the URL is validated, then the result list of the
      document fetched from it is extracted. */
  function New(u: Url, doc: Document): (r: Result<SearchTitle, PageError>)
    ensures r.Success? <==> EnsureIsExpectedUrl(u).Success? && GetResultList(doc).Success?
    ensures r.Success? ==> r.value.url == u && r.value.doc == doc
    ensures r.Success? ==> forall i :: 0 <= i < |r.value.lists| ==> r.value.lists[i].hasMain
  {
    var _ :- EnsureIsExpectedUrl(u);
    var lists :- GetResultList(doc);
    Success(SearchTitle(u, doc, lists))
  }

  /** Every non-ad row of the document survives construction, and the
      kept rows appear in document order. */
  lemma NewKeepsResultRows(u: Url, doc: Document, a: seq<Row>, b: seq<Row>)
    requires New(u, doc).Success? && doc.rows == a + b
    ensures New(u, doc).value.lists == Filter(a, IsResultRow) + Filter(b, IsResultRow)
    ensures forall i :: 0 <= i < |doc.rows| && doc.rows[i].hasMain ==> doc.rows[i] in New(u, doc).value.lists
  {
    FilterConcat(a, b, IsResultRow);
  }

  /** `filterByUser`: a falsy user (`null`, `""`, `"0"`) leaves the page as
      it is; otherwise only the rows whose user text is exactly the user
      stay, in order. */
  function FilterByUser(p: SearchTitle, user: Option<string>): (r: SearchTitle)
    ensures r.url == p.url && r.doc == p.doc
    ensures !TruthyOpt(user) ==> r == p
    ensures TruthyOpt(user) ==> forall i :: 0 <= i < |r.lists| ==> r.lists[i].user == user.value && r.lists[i] in p.lists
    ensures TruthyOpt(user) ==> forall i :: 0 <= i < |p.lists| && p.lists[i].user == user.value ==> p.lists[i] in r.lists
  {
    if !TruthyOpt(user) then p
    else p.(lists := Filter(p.lists, (row: Row) => row.user == user.value))
  }

  /** Filtering by the same user twice is filtering once. */
  lemma FilterByUserIdempotent(p: SearchTitle, user: Option<string>)
    ensures FilterByUser(FilterByUser(p, user), user) == FilterByUser(p, user)
  {
    if TruthyOpt(user) {
      FilterIdempotent(p.lists, (row: Row) => row.user == user.value);
    }
  }

  /** The user filter keeps order: filtering a list split in two is
      filtering each part, one after the other. */
  lemma FilterByUserConcat(p: SearchTitle, a: seq<Row>, b: seq<Row>, user: Option<string>)
    ensures FilterByUser(p.(lists := a + b), user).lists
      == FilterByUser(p.(lists := a), user).lists + FilterByUser(p.(lists := b), user).lists
  {
    if TruthyOpt(user) {
      FilterConcat(a, b, (row: Row) => row.user == user.value);
    }
  }

  /** A single row is kept exactly when its user text is the user. With
      the concatenation lemma, this fixes the filtered list: the user's
      rows, each once, in their order. */
  lemma FilterByUserSingle(p: SearchTitle, row: Row, user: string)
    requires Truthy(user)
    ensures FilterByUser(p.(lists := [row]), Some(user)).lists == if row.user == user then [row] else []
  {
  }

  /** A result list posted by the user alone passes the user filter whole. */
  lemma FilterByUserKeepsOwnRows(p: SearchTitle, user: string)
    requires Truthy(user)
    requires forall i :: 0 <= i < |p.lists| ==> p.lists[i].user == user
    ensures FilterByUser(p, Some(user)) == p
  {
    FilterAll(p.lists, (row: Row) => row.user == user);
  }

  /** The thread link a result row with a title points to. */
  function Link(row: Row): string
    requires row.href.Some?
  {
    ForumRoot + row.href.value
  }

  /** The links of the rows in turn, `None` from the first row without a
      title on. */
  function LinksOf(rows: seq<Row>): Option<seq<string>>
    decreases |rows|
  {
    if |rows| == 0 then Some([])
    else if rows[0].href.None? then None
    else match LinksOf(rows[1..])
      case None => None
      case Some(links) => Some([Link(rows[0])] + links)
  }

  /** `getLinks`: one link per row of the current list, in order. A row
      without a `.b-list__main__title` leaves an empty node list, on which
      `attr('href')` throws, so the whole call fails (`None`). */
  function GetLinks(rows: seq<Row>): (r: Option<seq<string>>)
    ensures r.None? <==> exists i :: 0 <= i < |rows| && rows[i].href.None?
    ensures r.Some? ==> |r.value| == |rows|
    ensures r.Some? ==> forall i :: 0 <= i < |rows| ==>
      rows[i].href.Some? && StartsWith(r.value[i], ForumRoot) && r.value[i][|ForumRoot|..] == rows[i].href.value
  {
    LinksOfMeans(rows);
    LinksOf(rows)
  }

  lemma {:induction false} LinksOfMeans(rows: seq<Row>)
    ensures LinksOf(rows).None? <==> exists i :: 0 <= i < |rows| && rows[i].href.None?
    ensures LinksOf(rows).Some? ==> |LinksOf(rows).value| == |rows|
    ensures LinksOf(rows).Some? ==> forall i :: 0 <= i < |rows| ==>
      rows[i].href.Some? && LinksOf(rows).value[i] == Link(rows[i])
    ensures forall i :: 0 <= i < |rows| && rows[i].href.Some? ==>
      StartsWith(Link(rows[i]), ForumRoot) && Link(rows[i])[|ForumRoot|..] == rows[i].href.value
    decreases |rows|
  {
    if |rows| > 0 {
      var t := rows[1..];
      LinksOfMeans(t);
      assert forall i :: 0 <= i < |t| ==> t[i] == rows[i + 1];
      if exists i :: 0 <= i < |rows| && rows[i].href.None? {
        var i :| 0 <= i < |rows| && rows[i].href.None?;
        if i > 0 {
          assert t[i - 1].href.None?;
        }
      }
      if rows[0].href.Some? {
        assert StartsWith(Link(rows[0]), ForumRoot) && Link(rows[0])[|ForumRoot|..] == rows[0].href.value;
      }
    }
  }

  lemma {:induction false} LinksOfConcat(a: seq<Row>, b: seq<Row>)
    ensures LinksOf(a + b) ==
      if LinksOf(a).Some? && LinksOf(b).Some? then Some(LinksOf(a).value + LinksOf(b).value) else None
    decreases |a|
  {
    if |a| == 0 {
      assert a + b == b;
      if LinksOf(b).Some? {
        assert [] + LinksOf(b).value == LinksOf(b).value;
      }
    } else {
      assert (a + b)[0] == a[0];
      assert (a + b)[1..] == a[1..] + b;
      LinksOfConcat(a[1..], b);
      if a[0].href.Some? && LinksOf(a[1..]).Some? && LinksOf(b).Some? {
        var x, y := LinksOf(a[1..]).value, LinksOf(b).value;
        assert [Link(a[0])] + (x + y) == [Link(a[0])] + x + y;
      }
    }
  }

  /** Links of two consecutive row runs are the two link lists in turn;
      a missing title in either run fails the whole call. */
  lemma GetLinksConcat(a: seq<Row>, b: seq<Row>)
    ensures GetLinks(a + b) ==
      if GetLinks(a).Some? && GetLinks(b).Some? then Some(GetLinks(a).value + GetLinks(b).value) else None
  {
    LinksOfConcat(a, b);
  }

  /** Two rows with different hrefs never share a link. */
  lemma LinkInjective(x: Row, y: Row)
    requires x.href.Some? && y.href.Some? && Link(x) == Link(y)
    ensures x.href == y.href
  {
    assert Link(x)[|ForumRoot|..] == x.href.value;
    assert Link(y)[|ForumRoot|..] == y.href.value;
  }

  /** `hasNextPage()`: the pagination control shows a following page whose
      text is neither empty nor `"0"`. */
  function HasNextPage(p: SearchTitle): (r: bool)
    ensures r <==> p.doc.pager.Some? && |p.doc.pager.value| > 0 && Truthy(p.doc.pager.value[0])
  {
    Pages.HasNextPage(p.doc.pager)
  }

  /** `nextPage`: `null` without a next page; otherwise a new page built
      from `url->nextPage()` and the document `fetch` returns for it, whose
      construction can fail. Its result list is unfiltered. */
  function NextPage(p: SearchTitle, fetch: Url -> Document): (r: Result<Option<SearchTitle>, PageError>)
    ensures !HasNextPage(p) ==> r == Success(None)
    ensures HasNextPage(p) && r.Success? ==> r.value.Some? && r.value.value.url == Urls.NextPage(p.url)
    ensures HasNextPage(p) && New(Urls.NextPage(p.url), fetch(Urls.NextPage(p.url))).Success? ==>
      r == Success(Some(New(Urls.NextPage(p.url), fetch(Urls.NextPage(p.url))).value))
    ensures HasNextPage(p) ==> (r.Failure? <==> New(Urls.NextPage(p.url), fetch(Urls.NextPage(p.url))).Failure?)
  {
    if !HasNextPage(p) then Success(None)
    else
      var next := Urls.NextPage(p.url);
      var q :- New(next, fetch(next));
      Success(Some(q))
  }

  /** Advancing keeps a URL acceptable: only `page` changes, and a title
      search stays a title search. So the next page can fail only on its
      document, never on its URL. */
  lemma NextPageUrlAccepted(u: Url)
    requires EnsureIsExpectedUrl(u).Success?
    ensures EnsureIsExpectedUrl(Urls.NextPage(u)).Success?
  {
  }

  /** On an accepted page, `nextPage` fails exactly when the next page's
      document has no result row and no "nothing found" marker. */
  lemma NextPageFailsOnlyOnLayout(p: SearchTitle, fetch: Url -> Document)
    requires EnsureIsExpectedUrl(p.url).Success? && HasNextPage(p)
    ensures NextPage(p, fetch).Failure? <==> GetResultList(fetch(Urls.NextPage(p.url))).Failure?
  {
    NextPageUrlAccepted(p.url);
  }

  /** `handle`: after the optional user filter, one
      `ScrapeBahaPostsContinuously` per remaining row, in order. The links
      are all built before the first dispatch, so a remaining row without a
      title dispatches nothing (`None`: the call throws). */
  function Handle(p: SearchTitle, user: Option<string>): (r: (SearchTitle, Option<seq<Job>>))
    ensures r.0 == FilterByUser(p, user)
    ensures r.1.None? <==> exists i :: 0 <= i < |r.0.lists| && r.0.lists[i].href.None?
    ensures r.1.Some? ==> |r.1.value| == |r.0.lists|
    ensures r.1.Some? ==> forall i :: 0 <= i < |r.1.value| ==>
      r.0.lists[i].href.Some? && r.1.value[i] == ScrapeBahaPostsContinuously(Link(r.0.lists[i]))
  {
    var q := FilterByUser(p, user);
    match GetLinks(q.lists)
    case None => (q, None)
    case Some(links) =>
      assert forall i :: 0 <= i < |links| ==> links[i] == Link(q.lists[i]) by {
        forall i | 0 <= i < |links|
          ensures links[i] == Link(q.lists[i])
        {
          assert links[i] == links[i][..|ForumRoot|] + links[i][|ForumRoot|..];
        }
      }
      (q, Some(Dispatch(links)))
  }

  function Dispatch(links: seq<string>): (r: seq<Job>)
    ensures |r| == |links|
    ensures forall i :: 0 <= i < |r| ==> r[i] == ScrapeBahaPostsContinuously(links[i])
  {
    seq(|links|, i requires 0 <= i < |links| => ScrapeBahaPostsContinuously(links[i]))
  }

  /** Without a user every result row is dispatched, in order, provided
      every row has a title; otherwise nothing is. */
  lemma HandleWithoutUser(p: SearchTitle, user: Option<string>)
    requires !TruthyOpt(user)
    ensures Handle(p, user).1.Some? <==> forall i :: 0 <= i < |p.lists| ==> p.lists[i].href.Some?
    ensures Handle(p, user).1.Some? ==>
      Handle(p, user).1.value == seq(|p.lists|, i requires 0 <= i < |p.lists| && p.lists[i].href.Some? =>
        ScrapeBahaPostsContinuously(Link(p.lists[i])))
  {
  }

  /** With a user, nothing is dispatched exactly when one of the user's
      rows lacks a title; otherwise a row's thread is dispatched exactly
      when the user posted that row. */
  lemma HandleDispatchesMatchingRows(p: SearchTitle, user: string)
    requires Truthy(user)
    ensures Handle(p, Some(user)).1.None? <==>
      exists i :: 0 <= i < |p.lists| && p.lists[i].user == user && p.lists[i].href.None?
    ensures Handle(p, Some(user)).1.Some? ==>
      forall i :: 0 <= i < |p.lists| && p.lists[i].user == user ==>
        p.lists[i].href.Some? && ScrapeBahaPostsContinuously(Link(p.lists[i])) in Handle(p, Some(user)).1.value
    ensures Handle(p, Some(user)).1.Some? ==>
      forall j :: 0 <= j < |Handle(p, Some(user)).1.value| ==> IsJobOfUserRow(p.lists, user, Handle(p, Some(user)).1.value[j])
  {
    var h := Handle(p, Some(user));
    KeptRows(p.lists, h.0.lists, user);
    if h.1.Some? {
      KeptJobs(p.lists, h.0.lists, user, h.1.value);
    }
  }

  /** What the user filter promises about the kept rows, turned into the
      two facts `handle` needs: a kept row without a title is one of the
      user's rows without a title, and the other way round. */
  lemma KeptRows(rows: seq<Row>, kept: seq<Row>, user: string)
    requires forall k :: 0 <= k < |kept| ==> kept[k].user == user && kept[k] in rows
    requires forall i :: 0 <= i < |rows| && rows[i].user == user ==> rows[i] in kept
    ensures (exists k :: 0 <= k < |kept| && kept[k].href.None?) <==>
      (exists i :: 0 <= i < |rows| && rows[i].user == user && rows[i].href.None?)
  {
    if exists i :: 0 <= i < |rows| && rows[i].user == user && rows[i].href.None? {
      var i :| 0 <= i < |rows| && rows[i].user == user && rows[i].href.None?;
      var k :| 0 <= k < |kept| && kept[k] == rows[i];
      assert kept[k].href.None?;
    }
    if exists k :: 0 <= k < |kept| && kept[k].href.None? {
      var k :| 0 <= k < |kept| && kept[k].href.None?;
      var i :| 0 <= i < |rows| && rows[i] == kept[k];
      assert rows[i].user == user && rows[i].href.None?;
    }
  }

  /** `job` is the continuation job of one of the user's rows. */
  predicate IsJobOfUserRow(rows: seq<Row>, user: string, job: Job) {
    exists i :: 0 <= i < |rows| && rows[i].user == user && rows[i].href.Some?
      && job == ScrapeBahaPostsContinuously(Link(rows[i]))
  }

  /** One job per kept row means every row of the user's has its job, and
      every job is the job of one of the user's rows. */
  lemma KeptJobs(rows: seq<Row>, kept: seq<Row>, user: string, jobs: seq<Job>)
    requires forall k :: 0 <= k < |kept| ==> kept[k].user == user && kept[k] in rows
    requires forall i :: 0 <= i < |rows| && rows[i].user == user ==> rows[i] in kept
    requires |jobs| == |kept|
    requires forall k :: 0 <= k < |jobs| ==> kept[k].href.Some? && jobs[k] == ScrapeBahaPostsContinuously(Link(kept[k]))
    ensures forall i :: 0 <= i < |rows| && rows[i].user == user ==>
      rows[i].href.Some? && ScrapeBahaPostsContinuously(Link(rows[i])) in jobs
    ensures forall j :: 0 <= j < |jobs| ==> IsJobOfUserRow(rows, user, jobs[j])
  {
    forall i | 0 <= i < |rows| && rows[i].user == user
      ensures rows[i].href.Some? && ScrapeBahaPostsContinuously(Link(rows[i])) in jobs
    {
      var k :| 0 <= k < |kept| && kept[k] == rows[i];
      assert jobs[k] == ScrapeBahaPostsContinuously(Link(rows[i]));
    }
    forall j | 0 <= j < |jobs|
      ensures IsJobOfUserRow(rows, user, jobs[j])
    {
      var i :| 0 <= i < |rows| && rows[i] == kept[j];
      assert jobs[j] == ScrapeBahaPostsContinuously(Link(rows[i]));
    }
  }
}

=== FILE: search_user.dfy ===
/** The user-search continuation: a job that holds (user, page, title),
    fetches one page of the user's posts, dispatches one post-scraping job
    per result row and, when the page reports a next one, queues itself
    again for page + 1. Its implementation is not part of this model; the
    behaviour is the one its tests fix. */
module SearchUsers {
  import opened Wrappers
  import opened Numerals
  import opened Urls
  import opened Pages

  /** The job's state: `user`, `page` (1 by default) and `title` (`null`
      by default). */
  datatype State = State(user: string, page: nat, title: Option<string>)

  /** A fetched result page: the `href` of each result row's post link and
      the pagination control. */
  datatype UserPage = UserPage(hrefs: seq<string>, pager: Pager)

  /** One run of the job: the URL it requested, the jobs it queued. */
  datatype Run = Run(request: Url, jobs: seq<Job>)

  /** The job as constructed with only a user. */
  function Initial(user: string): State {
    State(user, 1, None)
  }

  /** The search URL for a state. */
  function RequestUrl(s: State): (u: Url)
    ensures u.domain == ForumHost && u.path == "/Bo.php"
  {
    Url("https", ForumHost, "/Bo.php", SearchParams(s.user) + [("page", NatToString(s.page))])
  }

  /** The parameters of a user search other than `page`: board 60076,
      search type 6 (by user), the user. */
  function SearchParams(user: string): Query {
    [("bsn", "60076"), ("qt", "6"), ("q", user)]
  }

  /** The successor state: the same user and title, the next page. */
  function Successor(s: State): State {
    s.(page := s.page + 1)
  }

  function PostJobs(hrefs: seq<string>): (r: seq<Job>)
    ensures |r| == |hrefs|
    ensures forall i :: 0 <= i < |r| ==> r[i] == ScrapeBahaPosts(ForumRoot + hrefs[i])
  {
    seq(|hrefs|, i requires 0 <= i < |hrefs| => ScrapeBahaPosts(ForumRoot + hrefs[i]))
  }

  /** `handle()`: the page fetched for `RequestUrl(s)` either fails (no job
      is queued) or yields one `ScrapeBahaPosts` per row, in order, followed
      by the successor when there is a next page. */
  function Step(s: State, fetched: Result<UserPage, PageError>): (r: Result<Run, PageError>)
    ensures r.Failure? <==> fetched.Failure?
    ensures r.Success? ==> r.value.request == RequestUrl(s)
    ensures r.Success? ==>
      var n := |fetched.value.hrefs|;
      && |r.value.jobs| == n + (if HasNextPage(fetched.value.pager) then 1 else 0)
      && (forall i :: 0 <= i < n ==> r.value.jobs[i] == ScrapeBahaPosts(ForumRoot + fetched.value.hrefs[i]))
      && (HasNextPage(fetched.value.pager) ==> r.value.jobs[n] == Continue(Successor(s)))
  {
    var page :- fetched;
    var next := if HasNextPage(page.pager) then [Continue(Successor(s))] else [];
    Success(Run(RequestUrl(s), PostJobs(page.hrefs) + next))
  }

  /** The queued continuation for a state. */
  function Continue(s: State): Job {
    ScrapePostsFromSearchUserContinuously(s.user, s.page, s.title)
  }

  /** The continuation jobs among a run's jobs. */
  function Continuations(jobs: seq<Job>): (r: seq<Job>)
    ensures forall i :: 0 <= i < |r| ==> r[i].ScrapePostsFromSearchUserContinuously? && r[i] in jobs
    ensures |r| <= |jobs|
  {
    if |jobs| == 0 then []
    else
      var rest := Continuations(jobs[1..]);
      if jobs[0].ScrapePostsFromSearchUserContinuously? then [jobs[0]] + rest else rest
  }

  lemma {:induction false} NoContinuationsInPostJobs(hrefs: seq<string>)
    ensures Continuations(PostJobs(hrefs)) == []
    decreases |hrefs|
  {
    if |hrefs| > 0 {
      assert PostJobs(hrefs)[1..] == PostJobs(hrefs[1..]);
      NoContinuationsInPostJobs(hrefs[1..]);
    }
  }

  lemma {:induction false} ContinuationsConcat(a: seq<Job>, b: seq<Job>)
    ensures Continuations(a + b) == Continuations(a) + Continuations(b)
    decreases |a|
  {
    if |a| == 0 {
      assert a + b == b;
    } else {
      assert (a + b)[1..] == a[1..] + b;
      ContinuationsConcat(a[1..], b);
    }
  }

  /** A run queues exactly one successor, with the same user and title and
      the next page, when there is a next page, and none on the last page. */
  lemma StepSuccessor(s: State, page: UserPage)
    ensures HasNextPage(page.pager) ==>
      Continuations(Step(s, Success(page)).value.jobs) == [ScrapePostsFromSearchUserContinuously(s.user, s.page + 1, s.title)]
    ensures !HasNextPage(page.pager) ==> Continuations(Step(s, Success(page)).value.jobs) == []
  {
    if HasNextPage(page.pager) {
      var j := Continue(Successor(s));
      StepJobs(s, page, [j]);
      PostJobsThen(page.hrefs, [j]);
      assert [j][1..] == [];
    } else {
      StepJobs(s, page, []);
      PostJobsThen(page.hrefs, []);
    }
  }

  lemma StepJobs(s: State, page: UserPage, next: seq<Job>)
    requires next == if HasNextPage(page.pager) then [Continue(Successor(s))] else []
    ensures Step(s, Success(page)).value.jobs == PostJobs(page.hrefs) + next
  {
  }

  /** Only what follows the post jobs can be a continuation. */
  lemma PostJobsThen(hrefs: seq<string>, next: seq<Job>)
    ensures Continuations(PostJobs(hrefs) + next) == Continuations(next)
  {
    ContinuationsConcat(PostJobs(hrefs), next);
    NoContinuationsInPostJobs(hrefs);
  }

  /** The request parameters: the user is `q`, `qt` is 6 (search by
      user) and `page` is the state's page. */
  lemma RequestParams(s: State)
    ensures Lookup(RequestUrl(s).query, "q") == Some(s.user)
    ensures Lookup(RequestUrl(s).query, "qt") == Some("6")
    ensures Lookup(RequestUrl(s).query, "page") == Some(NatToString(s.page))
    ensures PageNumber(RequestUrl(s)) == (if s.page >= 1 then s.page else 1)
  {
    var fixed, last := SearchParams(s.user), [("page", NatToString(s.page))];
    SearchParamsKeys(s.user);
    LookupAppend(fixed, last, "q");
    LookupAppend(fixed, last, "qt");
    LookupAppend(fixed, last, "page");
    LookupCons(("page", NatToString(s.page)), [], "page");
    ParseNatToString(s.page, 0);
  }

  lemma SearchParamsKeys(user: string)
    ensures Lookup(SearchParams(user), "q") == Some(user)
    ensures Lookup(SearchParams(user), "qt") == Some("6")
    ensures !HasKey(SearchParams(user), "page")
  {
    var p0, p1, p2 := ("bsn", "60076"), ("qt", "6"), ("q", user);
    assert SearchParams(user) == [p0] + ([p1] + [p2]);
    assert Lookup([p0] + ([p1] + [p2]), "q") == Some(user) by {
      LookupCons(p0, [p1] + [p2], "q");
      LookupCons(p1, [p2], "q");
      LookupCons(p2, [], "q");
    }
    assert Lookup([p0] + ([p1] + [p2]), "qt") == Some("6") by {
      LookupCons(p0, [p1] + [p2], "qt");
      LookupCons(p1, [p2], "qt");
    }
  }

  /** The request of a run as text: for user `foobar666` on page 1 it is
      `https://forum.gamer.com.tw/Bo.php?bsn=60076&qt=6&q=foobar666&page=1`. */
  lemma RequestText(s: State)
    ensures ToString(RequestUrl(s))
      == "https://forum.gamer.com.tw/Bo.php?bsn=60076&qt=6&q=" + s.user + "&page=" + NatToString(s.page)
  {
    var n := NatToString(s.page);
    var t := "q=" + s.user + "&page=" + n;
    RequestQueryString(s.user, n);
    HostPiece("bsn=60076&qt=6&" + t);
    FixedParamsPiece(t);
    UserPiece(s.user, n);
  }

  lemma RequestQueryString(user: string, n: string)
    ensures QueryString(SearchParams(user) + [("page", n)])
      == "bsn=60076&qt=6&" + ("q=" + user + "&page=" + n)
  {
    var p0, p1, p2, p3 := ("bsn", "60076"), ("qt", "6"), ("q", user), ("page", n);
    assert SearchParams(user) + [p3] == [p0] + ([p1] + ([p2] + [p3]));
    QueryStringCons(p2, [p3]);
    QueryStringCons(p1, [p2] + [p3]);
    QueryStringCons(p0, [p1] + ([p2] + [p3]));
    var a := "q=" + user + "&page=" + n;
    assert Pair(("bsn", "60076")) + "&" + (Pair(("qt", "6")) + "&" + a) == "bsn=60076&qt=6&" + a;
  }

  // The three steps below are literal concatenations. They stay separate
  // lemmas because proving them inline in `RequestText` exhausts the
  // solver's resource budget.

  lemma HostPiece(t: string)
    ensures "https" + "://" + "forum.gamer.com.tw" + "/Bo.php" + ("?" + t) == "https://forum.gamer.com.tw/Bo.php?" + t
  {
  }

  lemma FixedParamsPiece(t: string)
    ensures "https://forum.gamer.com.tw/Bo.php?" + ("bsn=60076&qt=6&" + t) == "https://forum.gamer.com.tw/Bo.php?bsn=60076&qt=6&" + t
  {
  }

  lemma UserPiece(user: string, n: string)
    ensures "https://forum.gamer.com.tw/Bo.php?bsn=60076&qt=6&" + ("q=" + user + "&page=" + n)
      == "https://forum.gamer.com.tw/Bo.php?bsn=60076&qt=6&q=" + user + "&page=" + n
  {
  }

  /** The first run for a user requests page 1 of the user's posts. */
  lemma FirstRequest(user: string)
    ensures ToString(RequestUrl(Initial(user)))
      == "https://forum.gamer.com.tw/Bo.php?bsn=60076&qt=6&q=" + user + "&page=1"
  {
    RequestText(Initial(user));
    assert NatToString(1) == "1";
  }

  /** The successor's request is the current request advanced by
      `nextPage()`: the `page` parameter is replaced in place. */
  lemma SuccessorRequestIsNextPage(s: State)
    requires s.page >= 1
    ensures RequestUrl(Successor(s)) == Urls.NextPage(RequestUrl(s))
  {
    var u, x := RequestUrl(s), NatToString(s.page + 1);
    var fixed := SearchParams(s.user);
    assert SetParam(u.query, "page", x) == fixed + [("page", x)] by {
      SearchParamsKeys(s.user);
      SetParamLast(fixed, "page", NatToString(s.page), x);
    }
    assert PageNumber(u) == s.page by {
      RequestParams(s);
    }
    NextPageAt(u, s.page);
    assert RequestUrl(Successor(s)) == u.(query := fixed + [("page", x)]);
  }

  /** `nextPage()` on a URL known to be on page `n`. */
  lemma NextPageAt(u: Url, n: nat)
    requires PageNumber(u) == n
    ensures Urls.NextPage(u) == u.(query := SetParam(u.query, "page", NatToString(n + 1)))
  {
  }

  /** What a chain of runs did: every URL requested (a run whose fetch
      failed included), every post job
      queued, and the state of a continuation still waiting, if any. */
  datatype Trace = Trace(requests: seq<Url>, posts: seq<Job>, pending: Option<State>)

  /** The chain of runs from `s`, the queue handing each run the page
      fetched for it from `pages` in turn. The chain stops at a failed
      fetch, at a page with no next page, or when `pages` runs out (then
      the queued successor is still pending). */
  function Walk(s: State, pages: seq<Result<UserPage, PageError>>): (t: Trace)
    ensures |t.requests| <= |pages|
    ensures t.pending.Some? ==>
      && |t.requests| == |pages| && t.pending.value.user == s.user
      && t.pending.value.title == s.title && t.pending.value.page == s.page + |pages|
    decreases |pages|
  {
    if |pages| == 0 then Trace([], [], Some(s))
    else match pages[0]
      case Failure(_) => Trace([RequestUrl(s)], [], None)
      case Success(page) =>
        var here := Trace([RequestUrl(s)], PostJobs(page.hrefs), None);
        if HasNextPage(page.pager) then
          var rest := Walk(Successor(s), pages[1..]);
          Trace(here.requests + rest.requests, here.posts + rest.posts, rest.pending)
        else here
  }

  /** Every page fetched successfully. */
  function Succeeded(pages: seq<UserPage>): (r: seq<Result<UserPage, PageError>>)
    ensures |r| == |pages| && forall i :: 0 <= i < |r| ==> r[i] == Success(pages[i])
  {
    if |pages| == 0 then [] else [Success(pages[0])] + Succeeded(pages[1..])
  }

  /** The post jobs of a sequence of pages, in page order. */
  function AllPosts(pages: seq<UserPage>): seq<Job> {
    if |pages| == 0 then [] else PostJobs(pages[0].hrefs) + AllPosts(pages[1..])
  }

  /** A complete walk: when every fetch succeeds and every page but the
      last reports a next page, the chain requests pages s.page, s.page + 1,
      ... once each and in order, queues every row of every page, and
      leaves nothing pending. */
  lemma {:induction false} CompleteWalk(s: State, pages: seq<UserPage>)
    requires |pages| > 0
    requires forall i :: 0 <= i < |pages| - 1 ==> HasNextPage(pages[i].pager)
    requires !HasNextPage(pages[|pages| - 1].pager)
    ensures var t := Walk(s, Succeeded(pages));
      && |t.requests| == |pages|
      && (forall i :: 0 <= i < |pages| ==> t.requests[i] == RequestUrl(s.(page := s.page + i)))
      && t.posts == AllPosts(pages)
      && t.pending.None?
    decreases |pages|
  {
    var fetched := Succeeded(pages);
    var t := Walk(s, fetched);
    if |pages| > 1 {
      var rest := Succeeded(pages[1..]);
      assert fetched[1..] == rest;
      CompleteWalk(Successor(s), pages[1..]);
      var t' := Walk(Successor(s), rest);
      forall i | 0 <= i < |pages|
        ensures t.requests[i] == RequestUrl(s.(page := s.page + i))
      {
        if i > 0 {
          assert t.requests[i] == t'.requests[i - 1];
          assert Successor(s).(page := Successor(s).page + (i - 1)) == s.(page := s.page + i);
        }
      }
    } else {
      assert s.(page := s.page + 0) == s;
      assert AllPosts(pages) == PostJobs(pages[0].hrefs) + AllPosts(pages[1..]);
    }
  }

  /** A failed fetch halts the walk: its own request is the last one. */
  lemma {:induction false} FailureHalts(s: State, pages: seq<Result<UserPage, PageError>>, k: nat)
    requires k < |pages| && pages[k].Failure?
    ensures |Walk(s, pages).requests| <= k + 1
    ensures Walk(s, pages).pending.None?
    decreases k
  {
    if k > 0 && pages[0].Success? && HasNextPage(pages[0].value.pager) {
      FailureHalts(Successor(s), pages[1..], k - 1);
    }
  }
}

=== FILE: spotify.dfy ===
/** The Spotify link matcher: a track page `/track/<id>` or an embed page
    `/embed/track/<id>` on open.spotify.com, and the two URLs built back
    from an id. */
module Spotify {
  import opened Wrappers
  import opened PhpStr

  /** `name()`. */
  const Name: string := "spotify"

  const TrackPrefix: string := "/track/"
  const EmbedPrefix: string := "/embed/track/"
  const Origin: string := "https://open.spotify.com"

  /** `isTrackUrl`: `Str::startsWith` with a non-empty needle, so a plain
      prefix test. */
  function IsTrackUrl(path: string): (r: bool)
    ensures r <==> |path| >= 7 && path[..7] == "/track/"
  {
    StrStartsWith(path, TrackPrefix)
  }

  /** `isEmbedUrl`: likewise a plain prefix test. */
  function IsEmbedUrl(path: string): (r: bool)
    ensures r <==> |path| >= 13 && path[..13] == "/embed/track/"
  {
    StrStartsWith(path, EmbedPrefix)
  }

  /** `walkCondition`: the track test first, then the embed test; each
      yields the text after the last occurrence of its prefix. `None` is
      the implicit `null` when neither matches. */
  function WalkCondition(path: string): (r: Option<string>)
    ensures r.None? <==> !IsTrackUrl(path) && !IsEmbedUrl(path)
    ensures IsTrackUrl(path) ==> r.Some? && IsAfterLast(path, TrackPrefix, r.value)
    ensures !IsTrackUrl(path) && IsEmbedUrl(path) ==> r.Some? && IsAfterLast(path, EmbedPrefix, r.value)
  {
    if IsTrackUrl(path) then
      assert OccursAt(path, TrackPrefix, 0);
      Some(AfterLast(path, TrackPrefix))
    else if IsEmbedUrl(path) then
      assert OccursAt(path, EmbedPrefix, 0);
      Some(AfterLast(path, EmbedPrefix))
    else None
  }

  /** `getResourceId`: the walked value, with a falsy one (`""`, `"0"`)
      turned into `null`. */
  function GetResourceId(path: string): (r: Option<string>)
    ensures r.Some? ==> Truthy(r.value)
    ensures !IsTrackUrl(path) && !IsEmbedUrl(path) ==> r.None?
    ensures r.Some? && IsTrackUrl(path) ==> IsAfterLast(path, TrackPrefix, r.value)
    ensures r.Some? && !IsTrackUrl(path) ==> IsAfterLast(path, EmbedPrefix, r.value)
    ensures r.None? && (IsTrackUrl(path) || IsEmbedUrl(path)) ==> !Truthy(WalkCondition(path).value)
  {
    match WalkCondition(path)
    case Some(id) => if Truthy(id) then Some(id) else None
    case None => None
  }

  /** The path of `generalUrl(id)`. */
  function GeneralPath(id: string): string {
    TrackPrefix + id
  }

  /** The path of `embeddedUrl(id)`. */
  function EmbeddedPath(id: string): string {
    EmbedPrefix + id
  }

  /** `generalUrl`. */
  function GeneralUrl(id: string): (r: string)
    ensures StartsWith(r, Origin) && r[|Origin|..] == GeneralPath(id)
  {
    Origin + GeneralPath(id)
  }

  /** `embeddedUrl`. */
  function EmbeddedUrl(id: string): (r: string)
    ensures StartsWith(r, Origin) && r[|Origin|..] == EmbeddedPath(id)
  {
    Origin + EmbeddedPath(id)
  }

  /** A path cannot pass both tests, so the order in which `walkCondition`
      tries them never decides the result. */
  lemma PrefixesExclusive(path: string)
    ensures !(IsTrackUrl(path) && IsEmbedUrl(path))
  {
    if IsTrackUrl(path) {
      assert path[1] == TrackPrefix[1] != EmbedPrefix[1];
    }
  }

  /** An id is one `generalUrl` can carry: truthy, and `/track/` does not
      occur in `"/" + id` (so the prefix `generalUrl` adds is the last one). */
  predicate ValidTrackId(id: string) {
    Truthy(id) && !Contains("/" + id, TrackPrefix)
  }

  /** The general path of an id extracts back to it exactly when the id
      is valid. */
  lemma GeneralPathRoundTrip(id: string)
    ensures GetResourceId(GeneralPath(id)) == Some(id) <==> ValidTrackId(id)
  {
    var s := GeneralPath(id);
    var u := "/" + id;
    assert s == "/track" + u;
    assert IsTrackUrl(s);
    if ValidTrackId(id) {
      forall j | 0 < j
        ensures !OccursAt(s, TrackPrefix, j)
      {
        if j < 6 {
          assert s[j] != TrackPrefix[0];
        } else if OccursAt(s, TrackPrefix, j) {
          OccursShift("/track", u, TrackPrefix, j);
        }
      }
      assert IsAfterLast(s, TrackPrefix, id);
      AfterLastIs(s, TrackPrefix, id);
    } else if Truthy(id) {
      var i :| 0 <= i <= |u| - |TrackPrefix| && OccursAt(u, TrackPrefix, i);
      assert s[6 + i..6 + i + 7] == u[i..i + 7];
      assert OccursAt(s, TrackPrefix, 6 + i);
      var r := WalkCondition(s).value;
      assert |r| < |id|;
    }
  }

  /** An id `embeddedUrl` can carry: truthy, and `/embed/track/` does not
      occur in `"/" + id` (so the prefix `embeddedUrl` adds is the last one). */
  predicate ValidEmbedId(id: string) {
    Truthy(id) && !Contains("/" + id, EmbedPrefix)
  }

  /** The embedded path of an id extracts back to it exactly when the id
      is one the embed URL can carry. */
  lemma EmbeddedPathRoundTrip(id: string)
    ensures GetResourceId(EmbeddedPath(id)) == Some(id) <==> ValidEmbedId(id)
  {
    var s := EmbeddedPath(id);
    var u := "/" + id;
    assert s == "/embed/track" + u;
    assert IsEmbedUrl(s);
    assert !IsTrackUrl(s) by { PrefixesExclusive(s); }
    if ValidEmbedId(id) {
      assert IsAfterLast(s, EmbedPrefix, id) by { EmbedOnlyAtStart(id); }
      AfterLastIs(s, EmbedPrefix, id);
    } else if Truthy(id) {
      var i :| 0 <= i <= |u| - |EmbedPrefix| && OccursAt(u, EmbedPrefix, i);
      assert s[12 + i..12 + i + 13] == u[i..i + 13];
      assert OccursAt(s, EmbedPrefix, 12 + i);
      var r := WalkCondition(s).value;
      assert |r| < |id|;
    }
  }

  /** In an embedded path of such an id the embed prefix occurs only at
      the start. */
  lemma EmbedOnlyAtStart(id: string)
    requires !Contains("/" + id, EmbedPrefix)
    ensures forall j | 0 < j :: !OccursAt(EmbeddedPath(id), EmbedPrefix, j)
  {
    var s := EmbeddedPath(id);
    var u := "/" + id;
    assert s == "/embed/track" + u;
    forall j | 0 < j
      ensures !OccursAt(s, EmbedPrefix, j)
    {
      if j < 12 {
        if j == 6 {
          assert s[j + 1] != EmbedPrefix[1];
        } else {
          assert s[j] != EmbedPrefix[0];
        }
      } else if OccursAt(s, EmbedPrefix, j) {
        OccursShift("/embed/track", u, EmbedPrefix, j);
      }
    }
  }

  /** A valid track id is also a valid embed id (`/embed/track/` holds
      `/track/`), so its general and embed URLs both read back as it. */
  lemma TrackIdEmbeds(id: string)
    requires ValidTrackId(id)
    ensures ValidEmbedId(id)
    ensures GetResourceId(EmbeddedPath(id)) == Some(id)
  {
    var u := "/" + id;
    if Contains(u, EmbedPrefix) {
      var i :| 0 <= i <= |u| - |EmbedPrefix| && OccursAt(u, EmbedPrefix, i);
      assert u[i + 6..i + 13] == u[i..i + 13][6..];
      assert OccursAt(u, TrackPrefix, i + 6);
    }
    EmbeddedPathRoundTrip(id);
  }

  /** Every id read from a track path is valid, so the general URL built
      from it reads back as the same id. */
  lemma TrackIdIsCanonical(path: string)
    requires IsTrackUrl(path) && GetResourceId(path).Some?
    ensures ValidTrackId(GetResourceId(path).value)
    ensures GetResourceId(GeneralPath(GetResourceId(path).value)) == GetResourceId(path)
  {
    var r := GetResourceId(path).value;
    AfterLastTail(path, TrackPrefix, r);
    assert TrackPrefix[6..] == "/";
    GeneralPathRoundTrip(r);
  }
}

=== FILE: street_voice.dfy ===
/** The StreetVoice link matcher: a song page `/<user>/songs/<id>/` on
    streetvoice.com, whose resource id is the trimmed three-segment path,
    and the two URLs built back from it. */
module StreetVoice {
  import opened Wrappers
  import opened PhpStr

  /** `name()`. */
  const Name: string := "street_voice"

  const Origin: string := "https://streetvoice.com/"
  const EmbedOrigin: string := "https://streetvoice.com/music/embed/?id="

  /** `isThreeSegments`: `explode('/')` gives exactly three pieces; empty
      pieces count and the middle one is not looked at. */
  function IsThreeSegments(path: string): (r: bool)
    ensures r <==> CountChar(path, '/') == 2
  {
    |Explode('/', path)| == 3
  }

  /** `getResourceId`: the path without its leading and trailing slashes,
      when that has exactly three segments (`null` otherwise, and for a
      falsy trimmed path). */
  function GetResourceId(path: string): (r: Option<string>)
    ensures r.Some? <==> CountChar(Trim(path, '/'), '/') == 2
    ensures r.Some? ==> |r.value| > 0 && r.value[0] != '/' && r.value[|r.value| - 1] != '/'
    ensures r.Some? ==>
      && OccursAt(path, r.value, LeadingRun(path, '/'))
      && LeadingRun(path, '/') + |r.value| + TrailingRun(path, '/') == |path|
  {
    var p := Trim(path, '/');
    if !IsThreeSegments(p) then None
    else
      ThreeSegmentsTruthy(p);
      if Truthy(p) then Some(p) else None
  }

  /** A three-segment path holds two slashes, so it is never falsy: the
      `?: null` in `getResourceId` never fires. */
  lemma ThreeSegmentsTruthy(p: string)
    requires IsThreeSegments(p)
    ensures Truthy(p)
  {
  }

  /** An id of the form `getResourceId` returns: two slashes, neither at
      an end. */
  predicate ValidId(id: string) {
    CountChar(id, '/') == 2 && |id| > 0 && id[0] != '/' && id[|id| - 1] != '/'
  }

  /** `generalUrl`. */
  function GeneralUrl(id: string): (r: string)
    ensures StartsWith(r, Origin) && r[|Origin|..] == id
  {
    Origin + id
  }

  /** The path of `generalUrl(id)`. */
  function GeneralPath(id: string): string {
    "/" + id
  }

  /** `getResourceId` returns exactly the valid ids, and the path of the
      general URL of an id reads back as that id exactly when it is valid. */
  lemma GeneralPathRoundTrip(id: string)
    ensures GetResourceId(GeneralPath(id)) == Some(id) <==> ValidId(id)
  {
    if ValidId(id) {
      assert Repeat('/', 1) == "/";
      TrimLeftPadded(id, '/', 1);
    }
  }

  /** Every id read from a path is valid, so its general URL reads back as
      the same id. */
  lemma ResourceIdIsCanonical(path: string)
    requires GetResourceId(path).Some?
    ensures ValidId(GetResourceId(path).value)
    ensures GetResourceId(GeneralPath(GetResourceId(path).value)) == GetResourceId(path)
  {
    GeneralPathRoundTrip(GetResourceId(path).value);
  }

  /** Empty segments count: a doubled slash still makes three segments. */
  lemma EmptySegmentCounts()
    ensures GetResourceId("/a//b/") == Some("a//b")
  {
    var p := "/a//b/";
    assert LeadingRun(p, '/') == 1 && TrailingRun(p, '/') == 1;
    assert Trim(p, '/') == "a//b";
    assert CountChar("a//b", '/') == 2;
  }

  /** `embeddedUrl` as written: the text between the first `songs/` and the
      last `/` after it. */
  function EmbeddedUrl(id: string): (r: string)
    ensures StartsWith(r, EmbedOrigin)
    ensures r[|EmbedOrigin|..] == Between(id, "songs/", "/")
  {
    EmbedOrigin + Between(id, "songs/", "/")
  }

  /** `embeddedUrl` as written does carry the song id `n` of
      `<user>/songs/<n>` as long as the user name does not end in `songs`. */
  lemma EmbeddedUrlTakesSongId(user: string, n: string)
    requires '/' !in user && '/' !in n && !EndsWith(user, "songs")
    ensures EmbeddedUrl(user + "/songs/" + n) == EmbedOrigin + n
  {
    var t := "songs/";
    var id := user + "/songs/" + n;
    var k := |user|;
    assert IsAfterFirst(id, t, n) by {
      assert id[k + 1..k + 7] == t;
      forall j | 0 <= j < k + 1
        ensures !OccursAt(id, t, j)
      {
        if j + 5 < k {
          assert id[j + 5] == user[j + 5] != t[5];
        } else if j + 5 == k {
          assert id[j..j + 5] == user[j..];
          assert id[j..j + 6][..5] == id[j..j + 5];
        } else {
          assert id[j + 5] == "/songs/"[j + 5 - k] != t[5];
        }
      }
    }
    AfterIs(id, t, n);
    NoOccurrenceWithout(n, "/", '/');
  }

  /** With a user name that ends in `songs` (`mysongs/songs/123`), the
      first `songs/` is the end of the user name and the embed URL carries
      `songs` instead of the song id, although the id is a valid one. */
  lemma EmbeddedUrlUserEndingInSongs(user: string, n: string)
    requires '/' !in user && '/' !in n && EndsWith(user, "songs")
    ensures |n| > 0 ==> ValidId(user + "/songs/" + n)
    ensures EmbeddedUrl(user + "/songs/" + n) == EmbedOrigin + "songs"
  {
    if |n| > 0 {
      SongPathValid(user, n);
    }
    AfterUserEndingInSongs(user, n);
    BeforeSlashOfSongs(n);
  }

  /** The first `songs/` of `<user>songs/songs/<n>` ends the user name. */
  lemma AfterUserEndingInSongs(user: string, n: string)
    requires '/' !in user && EndsWith(user, "songs")
    ensures After(user + "/songs/" + n, "songs/") == "songs/" + n
  {
    var id := user + "/songs/" + n;
    var k := |user|;
    assert IsAfterFirst(id, "songs/", "songs/" + n) by {
      assert id[k - 5..k + 1] == user[k - 5..] + "/";
      forall j | 0 <= j < k - 5
        ensures !OccursAt(id, "songs/", j)
      {
        assert id[j + 5] == user[j + 5];
      }
    }
    AfterIs(id, "songs/", "songs/" + n);
  }

  /** Before the only slash of `songs/<n>` stands `songs`. */
  lemma BeforeSlashOfSongs(n: string)
    requires '/' !in n
    ensures BeforeLast("songs/" + n, "/") == "songs"
  {
    var rest := "songs/" + n;
    assert IsBeforeLast(rest, "/", "songs") by {
      forall j | 5 < j
        ensures !OccursAt(rest, "/", j)
      {
        if j < |rest| {
          assert rest[j] == n[j - 6];
        }
      }
    }
    BeforeLastIs(rest, "/", "songs");
  }

  /** `<user>/songs/<n>` with slash-free, non-empty user and song id is a
      valid id. */
  lemma SongPathValid(user: string, n: string)
    requires '/' !in user && '/' !in n && |user| > 0 && |n| > 0
    ensures ValidId(user + "/songs/" + n)
  {
    CountCharConcat(user, "/songs/", '/');
    CountCharConcat(user + "/songs/", n, '/');
    CountCharAbsent(user, '/');
    CountCharAbsent(n, '/');
    CountCharConcat("/", "songs/", '/');
    CountCharConcat("songs", "/", '/');
    CountCharAbsent("songs", '/');
    assert "/songs/" == "/" + ("songs" + "/");
    assert "songs/" == "songs" + "/";
  }

  /** The embed URL with the song id taken as the last path segment: the
      longest slash-free suffix of the id. */
  function EmbeddedUrlFixed(id: string): (r: string)
    ensures StartsWith(r, EmbedOrigin)
    ensures var song := r[|EmbedOrigin|..];
      && EndsWith(id, song) && '/' !in song
      && (|song| == |id| || id[|id| - |song| - 1] == '/')
  {
    var song := AfterLast(id, "/");
    LastSegment(id);
    EmbedOrigin + song
  }

  /** What follows the last slash (the whole id when there is none) is a
      slash-free suffix preceded by a slash or by nothing. */
  lemma LastSegment(id: string)
    ensures var song := AfterLast(id, "/");
      && EndsWith(id, song) && '/' !in song && (|song| == |id| || id[|id| - |song| - 1] == '/')
  {
    var song := AfterLast(id, "/");
    if Contains(id, "/") {
      forall k | 0 <= k < |song|
        ensures song[k] != '/'
      {
        assert !OccursAt(id, "/", |id| - |song| + k);
        assert id[|id| - |song| + k] == song[k];
      }
      assert id[|id| - |song| - 1] == id[|id| - |song| - 1..|id| - |song|][0];
    } else {
      forall k | 0 <= k < |id|
        ensures id[k] != '/'
      {
        assert !OccursAt(id, "/", k);
      }
    }
  }

  /** For an id `<user>/songs/<n>`, the fixed embed URL carries `n`,
      whatever the user name. */
  lemma EmbeddedUrlFixedTakesSongId(user: string, n: string)
    requires '/' !in user && '/' !in n
    ensures EmbeddedUrlFixed(user + "/songs/" + n) == EmbedOrigin + n
  {
    var id := user + "/songs/" + n;
    var r := EmbeddedUrlFixed(id);
    var song := r[|EmbedOrigin|..];
    assert id[|id| - |n| - 1] == '/';
    forall i | |id| - |song| <= i < |id|
      ensures id[i] != '/'
    {
      assert id[i] == song[i - (|id| - |song|)];
    }
    forall i | |id| - |n| <= i < |id|
      ensures id[i] != '/'
    {
      assert id[i] == n[i - (|id| - |n|)];
    }
    assert song == id[|id| - |n|..] == n;
    assert r == r[..|EmbedOrigin|] + song;
  }
}

=== FILE: thread_page.dfy ===
/** A thread page of the forum (`C.php` for a whole thread, `Co.php` for a
    single post). Its implementation is not part of this model; what is
    modelled is the contract its tests fix: URL rejection at construction,
    the thread index and posts that must be present, the date fallback, the
    next-page walk, and saving the thread and its posts as upserts. */
module ThreadPages {
  import opened Wrappers
  import opened Urls
  import opened Pages

  /** A calendar date. */
  datatype Date = Date(year: nat, month: nat, day: nat)

  /** One post section of the page. */
  datatype Section = Section(no: nat, posterId: nat, content: string, createdAt: Date)

  /** A fetched thread page: the thread index (absent on an unavailable
      thread), the title, the date the title states (if any), the post
      sections in order, and the pagination control. */
  datatype ThreadDoc = ThreadDoc(index: Option<string>, title: string, titleDate: Option<Date>, sections: seq<Section>, pager: Pager)

  datatype ThreadPage = ThreadPage(url: Url, doc: ThreadDoc)

  /** The URLs a thread page accepts: the forum host, a thread or a
      single-post path. */
  predicate IsThreadUrl(u: Url) {
    u.domain == ForumHost && (u.path == "/C.php" || u.path == "/Co.php")
  }

  /** The constructor: a URL that is not a thread URL is rejected before
      anything is fetched. */
  function New(u: Url, fetch: Url -> ThreadDoc): (r: Result<ThreadPage, PageError>)
    ensures r.Success? <==> IsThreadUrl(u)
    ensures r.Success? ==> r.value.url == u && r.value.doc == fetch(u)
  {
    if IsThreadUrl(u) then Success(ThreadPage(u, fetch(u))) else Failure(NotExpectedPage(""))
  }

  /** `http://example.foo.bar` is not a thread URL. */
  lemma RejectsForeignUrl(fetch: Url -> ThreadDoc)
    ensures New(Url("http", "example.foo.bar", "", []), fetch).Failure?
  {
    assert "example.foo.bar" != ForumHost by {
      assert "example.foo.bar"[0] != ForumHost[0];
    }
  }

  /** `index()`: the thread's number; an unavailable thread has none. */
  function Index(p: ThreadPage): (r: Result<string, PageError>)
    ensures r.Success? <==> p.doc.index.Some?
    ensures r.Success? ==> r.value == p.doc.index.value
  {
    match p.doc.index
    case Some(i) => Success(i)
    case None => Failure(NotExpectedPage("thread unavailable"))
  }

  /** `posts()`: the post sections; a page without any is an error. */
  function Posts(p: ThreadPage): (r: Result<seq<Section>, PageError>)
    ensures r.Success? <==> |p.doc.sections| > 0
    ensures r.Success? ==> r.value == p.doc.sections
  {
    if |p.doc.sections| == 0 then Failure(NotExpectedPage("no posts")) else Success(p.doc.sections)
  }

  /** `date()`: the title's date, and the first post's date when the
      title has none. */
  function ThreadDate(p: ThreadPage): (r: Result<Date, PageError>)
    ensures p.doc.titleDate.Some? ==> r == Success(p.doc.titleDate.value)
    ensures p.doc.titleDate.None? ==> (r.Success? <==> Posts(p).Success?)
    ensures p.doc.titleDate.None? && r.Success? ==> r.value == Posts(p).value[0].createdAt
  {
    match p.doc.titleDate
    case Some(d) => Success(d)
    case None =>
      var sections :- Posts(p);
      Success(sections[0].createdAt)
  }

  /** A title without a date takes the first post's date (the thread of
      2 January 2021). */
  lemma NoTitleDateFallsBack(p: ThreadPage, rest: seq<Section>, first: Section)
    requires p.doc.titleDate.None? && p.doc.sections == [first] + rest && first.createdAt == Date(2021, 1, 2)
    ensures ThreadDate(p) == Success(Date(2021, 1, 2))
  {
  }

  /** `hasNextPage()`: the page's pagination control shows a following
      page whose text is neither empty nor `"0"`. */
  function HasNextPage(p: ThreadPage): (r: bool)
    ensures r <==> p.doc.pager.Some? && |p.doc.pager.value| > 0 && p.doc.pager.value[0] != "" && p.doc.pager.value[0] != "0"
  {
    Pages.HasNextPage(p.doc.pager)
  }

  /** `nextPage()`: `null` on the last page, otherwise the page at
      `url->nextPage()`. */
  function NextPage(p: ThreadPage, fetch: Url -> ThreadDoc): (r: Option<ThreadPage>)
    requires IsThreadUrl(p.url)
    ensures r.None? <==> !HasNextPage(p)
    ensures r.Some? ==> r.value.url == Urls.NextPage(p.url) && r.value.doc == fetch(r.value.url)
    ensures r.Some? ==> IsThreadUrl(r.value.url)
  {
    if !HasNextPage(p) then None
    else
      var next := Urls.NextPage(p.url);
      assert IsThreadUrl(next);
      Some(New(next, fetch).value)
  }

  /** The URL of the test thread. */
  const FirstPageUrl: Url := Url("https", ForumHost, "/C.php", [("bsn", "60076"), ("snA", "6004847")])

  /** The test thread's URL renders as given, and its next page's URL is
      that text followed by `&page=2`. */
  lemma FirstPageNextUrl()
    ensures ToString(FirstPageUrl) == "https://forum.gamer.com.tw/C.php?bsn=60076&snA=6004847"
    ensures ToString(Urls.NextPage(FirstPageUrl)) == "https://forum.gamer.com.tw/C.php?bsn=60076&snA=6004847&page=2"
  {
    FirstPageText();
    FirstPageHasNoPage();
    NextPageOfFirstPage(FirstPageUrl);
    FirstPageAppend();
  }

  lemma FirstPageHasNoPage()
    ensures !HasKey(FirstPageUrl.query, "page")
  {
    var q := FirstPageUrl.query;
    assert q[0].0 != "page" && q[1].0 != "page";
  }

  lemma FirstPageAppend()
    ensures "https://forum.gamer.com.tw/C.php?bsn=60076&snA=6004847" + "&page=2"
      == "https://forum.gamer.com.tw/C.php?bsn=60076&snA=6004847&page=2"
  {
  }

  lemma FirstPageText()
    ensures ToString(FirstPageUrl) == "https://forum.gamer.com.tw/C.php?bsn=60076&snA=6004847"
  {
    var q := FirstPageUrl.query;
    assert QueryString(q) == "bsn=60076&snA=6004847" by {
      assert q[1..] == [("snA", "6004847")];
    }
    FirstPageTextPieces();
  }

  // `FirstPageTextPieces` and the three steps it uses are literal
  // concatenations; they stay separate lemmas because proving them inline
  // exhausts the solver's resource budget.
  lemma FirstPageTextPieces()
    ensures "https" + "://" + ForumHost + "/C.php" + ("?" + "bsn=60076&snA=6004847")
      == "https://forum.gamer.com.tw/C.php?bsn=60076&snA=6004847"
  {
    HostPiece();
    QueryPiece();
    PathPiece();
  }

  lemma HostPiece()
    ensures "https" + "://" + ForumHost == "https://forum.gamer.com.tw"
  {
  }

  lemma QueryPiece()
    ensures "?" + "bsn=60076&snA=6004847" == "?bsn=60076&snA=6004847"
  {
  }

  lemma PathPiece()
    ensures "https://forum.gamer.com.tw" + "/C.php" + "?bsn=60076&snA=6004847"
      == "https://forum.gamer.com.tw/C.php?bsn=60076&snA=6004847"
  {
  }

  /** Walking a thread from a page: the pages visited while each reports a
      next page, at most `n` more of them. Every step is `nextPage()` of
      the page before, so each later page carries the document `fetch`
      returns for its URL. */
  function Walk(p: ThreadPage, fetch: Url -> ThreadDoc, n: nat): (r: seq<ThreadPage>)
    requires IsThreadUrl(p.url)
    ensures |r| >= 1 && r[0] == p
    ensures forall i :: 0 <= i < |r| ==> IsThreadUrl(r[i].url)
    ensures forall i :: 0 <= i < |r| - 1 ==> HasNextPage(r[i]) && r[i + 1].url == Urls.NextPage(r[i].url)
    ensures forall i :: 0 <= i < |r| - 1 ==> NextPage(r[i], fetch) == Some(r[i + 1])
    ensures forall i :: 0 < i < |r| ==> r[i].doc == fetch(r[i].url)
    ensures |r| <= n + 1
    ensures |r| < n + 1 ==> !HasNextPage(r[|r| - 1])
  {
    var r := Chain(p, Advance(fetch), n);
    ChainSteps(p, Advance(fetch), n);
    ChainStops(p, Advance(fetch), n);
    AdvancesAreNextPages(fetch, r);
    r
  }

  /** `nextPage()` as a step on any page, giving nothing off a thread URL. */
  function Advance(fetch: Url -> ThreadDoc): ThreadPage -> Option<ThreadPage> {
    (q: ThreadPage) => if IsThreadUrl(q.url) then NextPage(q, fetch) else None
  }

  /** Pages linked by `Advance` are linked by `nextPage()`: each later page
      is on a thread URL and carries the document fetched for it. */
  lemma AdvancesAreNextPages(fetch: Url -> ThreadDoc, r: seq<ThreadPage>)
    requires forall i :: 0 <= i < |r| - 1 ==> Advance(fetch)(r[i]) == Some(r[i + 1])
    ensures forall i :: 0 < i < |r| ==> IsThreadUrl(r[i].url) && r[i].doc == fetch(r[i].url)
    ensures forall i :: 0 <= i < |r| - 1 ==>
      && IsThreadUrl(r[i].url) && NextPage(r[i], fetch) == Some(r[i + 1])
      && HasNextPage(r[i]) && r[i + 1].url == Urls.NextPage(r[i].url)
  {
    forall i | 0 < i < |r|
      ensures IsThreadUrl(r[i].url) && r[i].doc == fetch(r[i].url)
    {
      assert Advance(fetch)(r[i - 1]) == Some(r[(i - 1) + 1]);
    }
    forall i | 0 <= i < |r| - 1
      ensures IsThreadUrl(r[i].url) && NextPage(r[i], fetch) == Some(r[i + 1])
      ensures HasNextPage(r[i]) && r[i + 1].url == Urls.NextPage(r[i].url)
    {
      assert Advance(fetch)(r[i]) == Some(r[i + 1]);
    }
  }

  /** Repeating a partial step from `x`: `x`, then each step's result, for
      at most `n` steps, ending early where the step gives nothing. */
  function Chain<T>(x: T, step: T -> Option<T>, n: nat): (r: seq<T>)
    ensures |r| >= 1 && r[0] == x && |r| <= n + 1
    decreases n
  {
    if n == 0 then [x]
    else match step(x)
      case None => [x]
      case Some(y) => [x] + Chain(y, step, n - 1)
  }

  /** Each element of a chain after the first is the step of the one before. */
  lemma {:induction false} ChainSteps<T>(x: T, step: T -> Option<T>, n: nat)
    ensures forall i :: 0 <= i < |Chain(x, step, n)| - 1 ==> step(Chain(x, step, n)[i]) == Some(Chain(x, step, n)[i + 1])
    decreases n
  {
    if n > 0 && step(x).Some? {
      var rest := Chain(step(x).value, step, n - 1);
      var r := [x] + rest;
      assert Chain(x, step, n) == r;
      ChainSteps(step(x).value, step, n - 1);
      forall i | 0 < i < |r| - 1
        ensures step(r[i]) == Some(r[i + 1])
      {
        var j := i - 1;
        assert r[i] == rest[j] && r[i + 1] == rest[j + 1];
        assert step(rest[j]) == Some(rest[j + 1]);
      }
    }
  }

  /** A chain shorter than its bound ends where the step gives nothing. */
  lemma {:induction false} ChainStops<T>(x: T, step: T -> Option<T>, n: nat)
    ensures var r := Chain(x, step, n); |r| < n + 1 ==> step(r[|r| - 1]).None?
    decreases n
  {
    if n > 0 && step(x).Some? {
      var rest := Chain(step(x).value, step, n - 1);
      ChainStops(step(x).value, step, n - 1);
      assert Chain(x, step, n) == [x] + rest;
    }
  }

  /** The three-page thread: when the first page and its successor report
      a next page and the third does not, a walk with room for two steps
      visits exactly those three fetched pages and stops. */
  lemma WalkThreePages(p: ThreadPage, fetch: Url -> ThreadDoc, n: nat)
    requires IsThreadUrl(p.url) && n >= 2
    requires HasNextPage(p)
    requires HasNextPage(ThreadPage(Urls.NextPage(p.url), fetch(Urls.NextPage(p.url))))
    requires !HasNextPage(ThreadPage(Urls.NextPage(Urls.NextPage(p.url)), fetch(Urls.NextPage(Urls.NextPage(p.url)))))
    ensures Walk(p, fetch, n) == [p,
      ThreadPage(Urls.NextPage(p.url), fetch(Urls.NextPage(p.url))),
      ThreadPage(Urls.NextPage(Urls.NextPage(p.url)), fetch(Urls.NextPage(Urls.NextPage(p.url))))]
  {
    var r := Walk(p, fetch, n);
    var u2 := Urls.NextPage(p.url);
    var u3 := Urls.NextPage(u2);
    assert |r| >= 2;
    assert r[1] == ThreadPage(u2, fetch(u2));
    assert |r| >= 3;
    assert r[2] == ThreadPage(u3, fetch(u3));
    assert !HasNextPage(r[2]);
    assert |r| == 3;
  }

  /** A saved `threads` row. */
  datatype ThreadRow = ThreadRow(id: nat, title: string, date: Date)

  /** A saved `posts` row of a thread. */
  datatype PostRow = PostRow(threadId: nat, posterId: nat, content: string, createdAt: Date)

  /** `threads` keyed by the thread's number, the next free row id, and
      `posts` keyed by the post's number. */
  datatype ThreadStore = ThreadStore(threads: map<string, ThreadRow>, nextId: nat, posts: map<nat, PostRow>)

  /** Thread row ids are below the next free id and distinct. */
  predicate ValidStore(s: ThreadStore) {
    && (forall no :: no in s.threads ==> s.threads[no].id < s.nextId)
    && (forall a, b :: a in s.threads && b in s.threads && a != b ==> s.threads[a].id != s.threads[b].id)
  }

  /** `save()`: the thread is upserted by its number, keeping its row id if
      it was already saved. Returns the row id. */
  function Save(s: ThreadStore, p: ThreadPage): (r: Result<(ThreadStore, nat), PageError>)
    ensures r.Success? <==> Index(p).Success? && ThreadDate(p).Success?
    ensures r.Success? ==>
      var (t, id) := r.value;
      && t.threads.Keys == s.threads.Keys + {p.doc.index.value}
      && t.threads[p.doc.index.value] == ThreadRow(id, p.doc.title, ThreadDate(p).value)
      && (forall no :: no in s.threads && no != p.doc.index.value ==> t.threads[no] == s.threads[no])
      && (p.doc.index.value in s.threads ==> id == s.threads[p.doc.index.value].id)
      && t.posts == s.posts
      && (ValidStore(s) ==> ValidStore(t))
  {
    var no :- Index(p);
    var date :- ThreadDate(p);
    if no in s.threads then
      var id := s.threads[no].id;
      Success((s.(threads := s.threads[no := ThreadRow(id, p.doc.title, date)]), id))
    else
      Success((s.(threads := s.threads[no := ThreadRow(s.nextId, p.doc.title, date)], nextId := s.nextId + 1), s.nextId))
  }

  /** Saving the same page twice leaves one row for the thread, with the
      same id, and nothing else different. */
  lemma SaveIdempotent(s: ThreadStore, p: ThreadPage)
    requires Save(s, p).Success?
    ensures Save(Save(s, p).value.0, p).Success?
    ensures Save(Save(s, p).value.0, p).value.1 == Save(s, p).value.1
    ensures Save(Save(s, p).value.0, p).value.0 == Save(s, p).value.0
  {
  }

  /** On an empty database, two saves leave exactly one thread row. */
  lemma SaveTwiceOneRow(p: ThreadPage)
    requires Save(ThreadStore(map[], 0, map[]), p).Success?
    ensures |Save(Save(ThreadStore(map[], 0, map[]), p).value.0, p).value.0.threads| == 1
  {
    var s1 := Save(ThreadStore(map[], 0, map[]), p).value.0;
    assert s1.threads.Keys == {p.doc.index.value};
    SaveIdempotent(ThreadStore(map[], 0, map[]), p);
  }

  /** The post numbers a page carries. */
  function Numbers(sections: seq<Section>): (r: set<nat>)
    ensures forall i :: 0 <= i < |sections| ==> sections[i].no in r
    ensures forall n :: n in r ==> exists i :: 0 <= i < |sections| && sections[i].no == n
    decreases |sections|
  {
    if |sections| == 0 then {}
    else
      var init := sections[..|sections| - 1];
      assert forall i :: 0 <= i < |init| ==> init[i] == sections[i];
      Numbers(init) + {sections[|sections| - 1].no}
  }

  /** The posts of a page upserted by number, all under thread `id`. */
  function SavePosts(posts: map<nat, PostRow>, id: nat, sections: seq<Section>): (r: map<nat, PostRow>)
    ensures r.Keys == posts.Keys + Numbers(sections)
    ensures forall i :: 0 <= i < |sections| ==> r[sections[i].no].threadId == id
    decreases |sections|
  {
    if |sections| == 0 then posts
    else
      var last := sections[|sections| - 1];
      var init := sections[..|sections| - 1];
      var prev := SavePosts(posts, id, init);
      assert forall i :: 0 <= i < |init| ==> init[i] == sections[i];
      prev[last.no := PostRow(id, last.posterId, last.content, last.createdAt)]
  }

  /** Posts whose number the page does not carry are left as they were. */
  lemma {:induction false} SavePostsKeepsOthers(posts: map<nat, PostRow>, id: nat, sections: seq<Section>, no: nat)
    requires no in posts && forall i :: 0 <= i < |sections| ==> sections[i].no != no
    ensures SavePosts(posts, id, sections)[no] == posts[no]
    decreases |sections|
  {
    if |sections| > 0 {
      SavePostsKeepsOthers(posts, id, sections[..|sections| - 1], no);
    }
  }

  /** `handle()`: the thread is saved, then every post of the page under
      the thread's row id. */
  function Handle(s: ThreadStore, p: ThreadPage): (r: Result<ThreadStore, PageError>)
    ensures r.Success? <==> Index(p).Success? && |p.doc.sections| > 0
    ensures r.Success? ==>
      && r.value.threads == Save(s, p).value.0.threads
      && r.value.posts.Keys == s.posts.Keys + Numbers(p.doc.sections)
      && forall i :: 0 <= i < |p.doc.sections| ==>
           r.value.posts[p.doc.sections[i].no].threadId == r.value.threads[p.doc.index.value].id
  {
    var _ :- Posts(p);
    var (t, id) :- Save(s, p);
    Success(t.(posts := SavePosts(t.posts, id, p.doc.sections)))
  }

  /** Twenty posts with distinct numbers saved into an empty database give
      one thread and twenty posts, all pointing at the thread. */
  lemma HandleFirstPage(p: ThreadPage)
    requires Index(p).Success? && |p.doc.sections| == 20
    requires forall i, j :: 0 <= i < j < 20 ==> p.doc.sections[i].no != p.doc.sections[j].no
    ensures Handle(ThreadStore(map[], 0, map[]), p).Success?
    ensures |Handle(ThreadStore(map[], 0, map[]), p).value.threads| == 1
    ensures |Handle(ThreadStore(map[], 0, map[]), p).value.posts| == 20
  {
    var r := Handle(ThreadStore(map[], 0, map[]), p).value;
    assert r.threads.Keys == {p.doc.index.value};
    DistinctNumbers(p.doc.sections);
  }

  /** Sections with distinct numbers have as many numbers as sections. */
  lemma {:induction false} DistinctNumbers(sections: seq<Section>)
    requires forall i, j :: 0 <= i < j < |sections| ==> sections[i].no != sections[j].no
    ensures |Numbers(sections)| == |sections|
    decreases |sections|
  {
    if |sections| > 0 {
      var init := sections[..|sections| - 1];
      assert forall i :: 0 <= i < |init| ==> init[i] == sections[i];
      DistinctNumbers(init);
      assert sections[|sections| - 1].no !in Numbers(init);
    }
  }
}

=== FILE: urls.dfy ===
/** A URL as the scraper sees it once parsed: scheme, host, path and the
    ordered list of query parameters. Only the operations the pages use are
    modelled: `domain()`, `path()`, `hasQuery`, `query` and `nextPage()`,
    plus the rendering back to a string that the tests compare against. */
module Urls {
  import opened Wrappers
  import opened Numerals

  type Query = seq<(string, string)>

  datatype Url = Url(scheme: string, domain: string, path: string, query: Query)

  /** `k` is the name of some query parameter. */
  predicate HasKey(q: Query, k: string) {
    exists i :: 0 <= i < |q| && q[i].0 == k
  }

  /** Every parameter name occurs at most once. */
  predicate DistinctKeys(q: Query) {
    forall i, j :: 0 <= i < j < |q| ==> q[i].0 != q[j].0
  }

  /** The value of the first parameter named `k`. */
  function Lookup(q: Query, k: string): (r: Option<string>)
    ensures r.None? <==> !HasKey(q, k)
    ensures r.Some? ==> exists i :: 0 <= i < |q| && q[i] == (k, r.value) && !HasKey(q[..i], k)
  {
    if |q| == 0 then None
    else if q[0].0 == k then
      assert !HasKey(q[..0], k);
      Some(q[0].1)
    else
      var r := Lookup(q[1..], k);
      if r.Some? then
        var i :| 0 <= i < |q[1..]| && q[1..][i] == (k, r.value) && !HasKey(q[1..][..i], k);
        assert q[..i + 1] == [q[0]] + q[1..][..i];
        r
      else
        r
  }

  /** `hasQuery(k)`. */
  predicate HasQuery(u: Url, k: string) {
    Lookup(u.query, k).Some?
  }

  /** `query(k)`: the parameter's value, `null` when absent. */
  function QueryValue(u: Url, k: string): Option<string> {
    Lookup(u.query, k)
  }

  /** Sets parameter `k` to `v`: the first `k` is replaced where it stands,
      otherwise `(k, v)` is appended at the end. */
  function SetParam(q: Query, k: string, v: string): (r: Query)
    ensures |r| == |q| || |r| == |q| + 1
  {
    if |q| == 0 then [(k, v)]
    else if q[0].0 == k then [(k, v)] + q[1..]
    else [q[0]] + SetParam(q[1..], k, v)
  }

  lemma HasKeyCons(q: Query, k: string)
    requires |q| > 0
    ensures HasKey(q, k) <==> q[0].0 == k || HasKey(q[1..], k)
  {
    if HasKey(q, k) && q[0].0 != k {
      var i :| 0 <= i < |q| && q[i].0 == k;
      assert q[1..][i - 1].0 == k;
    }
    if HasKey(q[1..], k) {
      var i :| 0 <= i < |q[1..]| && q[1..][i].0 == k;
      assert q[i + 1].0 == k;
    }
  }

  lemma LookupCons(p: (string, string), q: Query, k: string)
    ensures Lookup([p] + q, k) == if p.0 == k then Some(p.1) else Lookup(q, k)
  {
    assert ([p] + q)[1..] == q;
  }

  /** Looking up in a concatenation finds the first part's value when the
      first part has the name, and the second part's otherwise. */
  lemma {:induction false} LookupAppend(q: Query, r: Query, k: string)
    ensures Lookup(q + r, k) == if HasKey(q, k) then Lookup(q, k) else Lookup(r, k)
    decreases |q|
  {
    if |q| == 0 {
      assert q + r == r;
    } else {
      HasKeyCons(q, k);
      LookupAppend(q[1..], r, k);
      LookupCons(q[0], q[1..] + r, k);
      LookupCons(q[0], q[1..], k);
      assert q + r == [q[0]] + (q[1..] + r);
      assert q == [q[0]] + q[1..];
    }
  }

  /** After setting, `k` reads as `v` and every other parameter reads as before. */
  lemma {:induction false} SetParamLookup(q: Query, k: string, v: string, k': string)
    ensures Lookup(SetParam(q, k, v), k') == if k' == k then Some(v) else Lookup(q, k')
    decreases |q|
  {
    if |q| == 0 {
      LookupCons((k, v), [], k');
    } else if q[0].0 == k {
      LookupCons((k, v), q[1..], k');
      LookupCons(q[0], q[1..], k');
      assert q == [q[0]] + q[1..];
    } else {
      SetParamLookup(q[1..], k, v, k');
      LookupCons(q[0], SetParam(q[1..], k, v), k');
      LookupCons(q[0], q[1..], k');
      assert q == [q[0]] + q[1..];
    }
  }

  /** After setting, `k` reads as `v` and no other name changes. */
  lemma SetParamReads(q: Query, k: string, v: string)
    ensures Lookup(SetParam(q, k, v), k) == Some(v)
    ensures forall k' :: k' != k ==> Lookup(SetParam(q, k, v), k') == Lookup(q, k')
  {
    SetParamLookup(q, k, v, k);
    forall k' | k' != k
      ensures Lookup(SetParam(q, k, v), k') == Lookup(q, k')
    {
      SetParamLookup(q, k, v, k');
    }
  }

  /** A parameter that is not yet there is appended at the end; one that is
      there is replaced where it first stands, everything else kept. */
  lemma SetParamShape(q: Query, k: string, v: string)
    ensures !HasKey(q, k) ==> SetParam(q, k, v) == q + [(k, v)]
    ensures HasKey(q, k) ==> |SetParam(q, k, v)| == |q|
    ensures HasKey(q, k) ==> exists i :: (0 <= i < |q| && q[i].0 == k && !HasKey(q[..i], k)
      && SetParam(q, k, v) == q[..i] + [(k, v)] + q[i + 1..])
  {
    if HasKey(q, k) {
      var i :| 0 <= i < |q| && q[i] == (k, Lookup(q, k).value) && !HasKey(q[..i], k);
      SetParamAt(q, k, v, i);
    } else {
      SetParamAppends(q, k, v);
    }
  }

  lemma {:induction false} SetParamAppends(q: Query, k: string, v: string)
    requires !HasKey(q, k)
    ensures SetParam(q, k, v) == q + [(k, v)]
    decreases |q|
  {
    if |q| > 0 {
      HasKeyCons(q, k);
      SetParamAppends(q[1..], k, v);
      assert q == [q[0]] + q[1..];
    }
  }

  lemma {:induction false} SetParamAt(q: Query, k: string, v: string, i: nat)
    requires i < |q| && q[i].0 == k && !HasKey(q[..i], k)
    ensures SetParam(q, k, v) == q[..i] + [(k, v)] + q[i + 1..]
    decreases i
  {
    if i > 0 {
      assert q[..i][0] == q[0];
      var t := q[1..];
      assert t[..i - 1] == q[..i][1..];
      var pre := t[..i - 1];
      assert !HasKey(pre, k) by {
        forall j | 0 <= j < |pre|
          ensures pre[j].0 != k
        {
          assert pre[j] == q[..i][j + 1];
        }
      }
      SetParamAt(t, k, v, i - 1);
      assert q[..i] == [q[0]] + t[..i - 1];
      assert q[i + 1..] == t[i..];
    }
  }

  /** A parameter that stands last, after parameters with other names, is
      replaced in the last position. */
  lemma {:induction false} SetParamLast(q: Query, k: string, x: string, y: string)
    requires !HasKey(q, k)
    ensures SetParam(q + [(k, x)], k, y) == q + [(k, y)]
    decreases |q|
  {
    if |q| > 0 {
      HasKeyCons(q, k);
      assert (q + [(k, x)])[1..] == q[1..] + [(k, x)];
      SetParamLast(q[1..], k, x, y);
      assert q + [(k, y)] == [q[0]] + (q[1..] + [(k, y)]);
    }
  }

  /** Setting a parameter keeps parameter names distinct. */
  lemma {:induction false} SetParamDistinct(q: Query, k: string, v: string)
    requires DistinctKeys(q)
    ensures DistinctKeys(SetParam(q, k, v))
    decreases |q|
  {
    if |q| > 0 && q[0].0 != k {
      var rest := SetParam(q[1..], k, v);
      var r := [q[0]] + rest;
      assert DistinctKeys(q[1..]);
      SetParamDistinct(q[1..], k, v);
      assert !HasKey(q[1..], q[0].0);
      SetParamLookup(q[1..], k, v, q[0].0);
      assert !HasKey(rest, q[0].0);
      forall i, j | 0 <= i < j < |r|
        ensures r[i].0 != r[j].0
      {
        if i == 0 {
          assert r[j] == rest[j - 1];
        } else {
          assert r[i] == rest[i - 1] && r[j] == rest[j - 1];
        }
      }
    } else if |q| > 0 {
      var r := [(k, v)] + q[1..];
      forall i, j | 0 <= i < j < |r|
        ensures r[i].0 != r[j].0
      {
        assert r[j] == q[j];
        if i > 0 {
          assert r[i] == q[i];
        }
      }
    }
  }

  /** The current page number: the `page` parameter read as a number,
      1 when it is absent, not a number, or 0. */
  function PageNumber(u: Url): (n: nat)
    ensures n >= 1
    ensures !HasKey(u.query, "page") ==> n == 1
  {
    match Lookup(u.query, "page")
    case Some(v) =>
      (match ParseNat(v)
       case Some(p) => if p >= 1 then p else 1
       case None => 1)
    case None => 1
  }

  /** A page number written out in decimal reads back as itself. */
  lemma PageNumberReadsBack(u: Url, m: nat)
    requires m >= 1 && Lookup(u.query, "page") == Some(NatToString(m))
    ensures PageNumber(u) == m
  {
    ParseNatToString(m, 0);
  }

  /** `nextPage()`: the same URL with `page` set to the current page plus
      one. The page number moves forward by exactly one, `page` reads as
      that number written out, and every other parameter reads as before. */
  function NextPage(u: Url): (r: Url)
    ensures r.scheme == u.scheme && r.domain == u.domain && r.path == u.path
    ensures PageNumber(r) == PageNumber(u) + 1
    ensures Lookup(r.query, "page") == Some(NatToString(PageNumber(u) + 1))
    ensures forall k :: k != "page" ==> Lookup(r.query, k) == Lookup(u.query, k)
  {
    var n := PageNumber(u) + 1;
    var r := u.(query := SetParam(u.query, "page", NatToString(n)));
    SetParamReads(u.query, "page", NatToString(n));
    PageNumberReadsBack(r, n);
    r
  }

  function Pair(p: (string, string)): string {
    p.0 + "=" + p.1
  }

  /** The query string: `k=v` pairs joined with `&` (no percent-encoding). */
  function QueryString(q: Query): string {
    if |q| == 0 then ""
    else if |q| == 1 then Pair(q[0])
    else Pair(q[0]) + "&" + QueryString(q[1..])
  }

  /** The URL as text: `scheme://domain/path?query`, with no `?` when the
      query is empty. */
  function ToString(u: Url): string {
    u.scheme + "://" + u.domain + u.path + (if |u.query| == 0 then "" else "?" + QueryString(u.query))
  }

  /** Prepending a parameter to a non-empty query prepends `k=v&`. */
  lemma QueryStringCons(p: (string, string), q: Query)
    requires |q| > 0
    ensures QueryString([p] + q) == Pair(p) + "&" + QueryString(q)
  {
    assert ([p] + q)[1..] == q;
  }

  /** Appending a parameter to a non-empty query appends `&k=v` to its text. */
  lemma {:induction false} QueryStringAppend(q: Query, p: (string, string))
    requires |q| > 0
    ensures QueryString(q + [p]) == QueryString(q) + "&" + Pair(p)
    decreases |q|
  {
    if |q| == 1 {
      assert (q + [p])[1..] == [p];
    } else {
      assert (q + [p])[1..] == q[1..] + [p];
      QueryStringAppend(q[1..], p);
    }
  }

  /** On a URL that has a query but no `page` parameter, the next page's
      text is the original text with `&page=2` appended. */
  lemma NextPageOfFirstPage(u: Url)
    requires |u.query| > 0 && !HasKey(u.query, "page")
    ensures ToString(NextPage(u)) == ToString(u) + "&page=2"
  {
    assert PageNumber(u) == 1;
    assert NatToString(2) == "2";
    SetParamAppends(u.query, "page", "2");
    assert NextPage(u).query == u.query + [("page", "2")];
    QueryStringAppend(u.query, ("page", "2"));
  }
}

=== FILE: wrappers.dfy ===
/** Failure-compatible wrappers used across the model: PHP's `null` becomes
    `None`, and a thrown exception becomes `Failure`. */
module Wrappers {

  datatype Option<+T> = None | Some(value: T) {

    predicate IsFailure() {
      None?
    }

    function PropagateFailure<U>(): Option<U>
      requires None?
    {
      None
    }

    function Extract(): T
      requires Some?
    {
      value
    }
  }

  datatype Result<+R, +E> = Success(value: R) | Failure(error: E) {

    predicate IsFailure() {
      Failure?
    }

    function PropagateFailure<U>(): Result<U, E>
      requires Failure?
    {
      Failure(error)
    }

    function Extract(): R
      requires Success?
    {
      value
    }
  }
}
